=== FILE: README.md ===
# cloud-print-pdf: the print-job lifecycle in Dafny

cloud-print-pdf is a print client. One worker, `cloud_file_manager`, listens on a
WebSocket for job notifications. For each notification it downloads the job's
PDF into `wdir/pdfs/` and writes a JSON job record into `wdir/pending/`. A
notification that fails anywhere along the way becomes an error record in
`error/`. A second worker, `printer_manager`, watches the pending directory.
For every file created there it imports the record and runs the configured
printer executable on the PDF. It then records the outcome in the record and
moves the file to `ok/` or `error/`. A job's state is the directory its file
sits in.

This project models that lifecycle with pure functions over an immutable
store, one module per source file:

- `Types` holds the `Option`, `Result` and `Run` outcomes. `Run` is either
  `Done(value)` or `Panic(fault)`. The faults name the places where the
  modelled code panics, except the one listed under "## Left out".
- `Strings` and `Paths` cover string splitting and joining, and the parts of
  `PathBuf::join` and `Path::file_name` the program relies on.
- `Messages` is `message.rs`: the job record and its mutators.
- `Config` is `config.rs`: the defaults, the configuration-file probe and the
  merge of file fields over the defaults.
- `Queue` is the work directory as a store. It records which state
  directories exist and what every file holds. It also defines the two
  file-system primitives: `fs::write` and `fs::rename`.
- `MessageManager` is `message_manager.rs`: the `move_message`,
  `update_message` and `save_error_message` operations.
- `PrinterManager` is `printer_manager.rs`: the printer command line and
  `print_file`.
- `Printer` is `printer.rs`: `import_message` and its own `move_message`.
- `Dirs` is `dirs.rs`: provisioning the queue directories.
- `Layout` is where a queue entry's file lives on disk. It also relates the
  workers' differing path constructions.
- `Ingest` is `cloud_file_manager`: the WebSocket URL, the handling of one
  frame, the frame loop and the close flag.
- `Dispatch` is `watch` and `handle_print`: the store operations that
  dispatching one job performs, the event loop and the close flag.

The outside world is modelled as inputs rather than as effects:

- Each of these is an input value:
  - the configuration file's text and the parser's verdict on it;
  - the notification's parse result;
  - the HTTP response;
  - the fresh id of a default record;
  - the printer process's outcome;
  - the clock;
  - the watcher's events;
  - the close flag read before each item.
- A connection attempt is a function from the URL to its outcome.

## Model

| member | source | states |
|---|---|---|
| Paths.Join | src/dirs.rs:12-14 | Joining an absolute component replaces the base. A relative one is appended directly to an empty base or one ending in `/`, and after an added `/` to any other base. |
| Paths.FileNameOfJoin | src/main_executors.rs:225-231 | The file name of `dir/n` is `n` for every plain name `n`: the name the watcher extracts from an event path is the created file's name. |
| Paths.CollectOne | src/main_executors.rs:225 | Collecting a one-path event into a `PathBuf` yields that path. |
| Messages.DefaultMessage | src/main_executors.rs:49 | A default record carries the fresh id and no url, no pdf path, no print time, no error and no original body. |
| Messages.SetError | src/message.rs:25-27 | Setting an error stores the error text. A `Some` body becomes the original body, and `None` keeps the body the record had. Every other field is unchanged. |
| Messages.SetSuccessful | src/message.rs:29-32 | Marks the record valid and stamps the given time as the print time. Every other field is unchanged. |
| Messages.SetDownloadedFilePath | src/main_executors.rs:135 | Records where the pdf was written. Every other field is unchanged. |
| Messages.ErrorRecord | src/main_executors.rs:46-53 | The ingestion error record is a default record with the fresh id, the diagnostic as its error and the frame text as its original body. |
| Messages.SetErrorIdempotent | src/message.rs:25-27 | Setting the same error twice is setting it once. |
| Messages.SetErrorSetSuccessfulCommute | src/message.rs:25-32 | Setting an error and marking success touch disjoint fields, so their order does not matter. |
| Config.Merge | src/config.rs:127-151 | With no file, the configuration is the default. With a file, each of the seven file fields overrides its default when present and falls back to it when absent. The file name stays the default one. |
| Config.MergeToFile | src/config.rs:127-149 | Any configuration whose non-file fields are the defaults is recovered by merging a file that states all its fields. |
| Config.MergeEmptyFile | src/config.rs:36-49 | A file with no fields yields the default configuration, whose constants are `printclient.config`, `.`, `wdir` and `cat`. |
| Config.FromConfigFile | src/config.rs:68-125 | Only `./printclient.config.json` is ever probed. Reading it fails means a panic. JSON that does not parse means a panic. Otherwise the result is the merge of the parsed file. |
| Queue.TryWrite | src/message_manager.rs:103-111 | A write succeeds exactly when the target directory exists. It sets that one file and changes nothing else. |
| Queue.Rename | src/message_manager.rs:45-82 | A rename relocates the source file to the target, replacing whatever was there, when the source exists and the target directory exists. Otherwise it leaves the store unchanged. |
| MessageManager.QueuePath | src/message_manager.rs:28-36 | Builds the manager's path `work_dir_name/<state>/f`. Its partners are MessageManager.QueuePathIgnoresRoot, Layout.DefaultLayoutAgrees and Layout.ManagerPathMissesRootedQueue. |
| MessageManager.QueuePathIgnoresRoot | src/message_manager.rs:28-36 | The manager's paths do not depend on `root_path`. |
| MessageManager.MoveMessage | src/message_manager.rs:27-83 | Moves `pending/f` into `ok/` or `error/` when the file and the target directory exist. Otherwise the store is unchanged and the failure is invisible to the caller. |
| MessageManager.MoveIdempotent | src/message_manager.rs:45-82 | Two identical moves are one move. |
| MessageManager.MoveAfterMoveIsNoop | src/message_manager.rs:45-82 | After a successful move, no further move of the same file, to either directory, changes the store. A duplicate is never created. |
| MessageManager.MovePreservesUnique | src/message_manager.rs:45-82 | If every job name is in at most one queue directory before a move, the same holds after it. |
| MessageManager.UpdateMessage | src/message_manager.rs:85-113 | Overwrites exactly `pending/f` with the record. It panics exactly when `pending/` is missing. |
| MessageManager.SaveErrorMessage | src/message_manager.rs:115-143 | Writes exactly `error/f`. It panics exactly when `error/` is missing. The pending listing is untouched. |
| PrinterManager.Executable | src/printer_manager.rs:32-33 | The executable is `root_path`, a `/` and `printer_bin`. The `/` is left out when `root_path` is empty or already ends in one. An absolute `printer_bin` is used as is. |
| PrinterManager.PrintArgs | src/printer_manager.rs:35-40 | Builds the five printer arguments. Its partner PrinterManager.CommandLineReadsBack states what they read back as. |
| PrinterManager.CommandLine | src/printer_manager.rs:42 | Builds the logged command line. Its partner PrinterManager.CommandLineReadsBack states that it splits back into the executable and the arguments. |
| PrinterManager.CommandLineReadsBack | src/printer_manager.rs:35-42 | Splitting the logged command line on spaces gives back the executable, then `-print-to`, the printer name, `-print-settings`, the settings and the pdf path, when none of these contains a space. |
| PrinterManager.PrintFile | src/printer_manager.rs:25-62 | A record without a local pdf path panics. A spawn failure is returned as its text. A process whose stdout is not UTF-8 panics, with info logging enabled. Any other completed process is success. |
| PrinterManager.ExitStatusIgnored | src/printer_manager.rs:52-56 | Two runs that differ only in the exit code give the same outcome. |
| Printer.ImportMessage | src/printer.rs:36-79 | A missing file panics, and so does one that does not parse. Otherwise the result is `Ok` exactly when validation accepts the record, and it carries the validator's record otherwise. |
| Printer.MoveMessage | src/printer.rs:81-145 | Always returns `Ok(())`. `Pending` changes nothing. `Ok` and `Error` move the file as the manager's move does. |
| Printer.MoveAgreesWithManager | src/printer.rs:104-140 | The printer's `Ok` and `Error` moves coincide with the message manager's `FileOk` and `FileError` moves. |
| Dirs.CreateAll | src/dirs.rs:21-32 | Every path is attempted, in order. Exactly the paths not refused are created, and a refusal does not stop the others. |
| Dirs.GenerateWorkingDir | src/dirs.rs:11-33 | Attempts the `pending`, `error` and `ok` directories under `root_path/work_dir_name`, in that order. It creates exactly those not refused. |
| Dirs.ProvisionedDirs | src/dirs.rs:21-32 | The directories existing after provisioning never include the pdf directory. |
| Dirs.ProvisionAll | src/dirs.rs:12-32 | When nothing is refused, exactly the three queue directories exist. |
| Dirs.GenerateWorkingDirWithPdfs | src/dirs.rs:11-33 | The corrected provisioning attempts the three queue directories as written, then `root_path/work_dir_name/pdfs`. It creates exactly those not refused. |
| Dirs.ProvisionedDirsWithPdfs | src/dirs.rs:21-32 | The corrected provisioning yields the directories of the provisioning as written, plus the pdf directory exactly when its path was created. |
| Dirs.ProvisionAllWithPdfs | src/dirs.rs:12-32 | When nothing is refused, the corrected provisioning yields all four directories. |
| Layout.JobPath | src/dirs.rs:12-20 | Builds the provisioned path `root_path/work_dir_name/<state>/f` of a queue entry. Its partners are Layout.WatcherSeesJobPath and Layout.DefaultLayoutAgrees. |
| Layout.WatchedDir | src/main_executors.rs:189-191 | Builds the watched directory. Its partner Layout.WatchedDirIsProvisioned states that it is the first provisioned directory. |
| Layout.WatchedDirIsProvisioned | src/main_executors.rs:189-191 | The watched directory is the first directory provisioning creates. |
| Layout.WatcherSeesJobPath | src/main_executors.rs:189-191 | For every configuration, a pending job's file lies in the watched directory and its reported file name is its queue name. |
| Layout.DefaultLayoutAgrees | src/message_manager.rs:28-36 | Under the default configuration the manager's paths name the provisioned files, up to a leading `./`. |
| Layout.ManagerPathMissesRootedQueue | src/message_manager.rs:28-36 | For every absolute `root_path` with a relative `work_dir_name`, and every plain name, the manager's pending path with a leading `./` is neither the job's path nor inside the watched directory, as strings. They name different files unless the process runs in `root_path` (the model has no working directory). Under root `.` the two coincide (Layout.DefaultLayoutAgrees). |
| Layout.ManagerPathMissesRelativeRoot | src/message_manager.rs:28-36 | For every plain relative root, plain work directory and plain name, the job's path is `root_path/` followed by the manager's path, and the two differ. Read from any working directory, they name different files. |
| Layout.ManagerPathWithAbsoluteWorkDir | src/message_manager.rs:28-36 | With an absolute `work_dir_name`, the manager's paths are the job's files whatever the root, so the miss above needs a relative work directory. |
| Ingest.WsUrl | src/main_executors.rs:15-21 | Builds the WebSocket URL. Its partner Ingest.WsUrlReadsBack states that it parses back to the configured values. |
| Ingest.PdfPath | src/main_executors.rs:110-112 | Builds the hard-coded pdf path `wdir/pdfs/{id}.pdf`. Its partner Ingest.PdfPathAgreesByDefault relates it to the store's pdf key. |
| Ingest.PendingJsonPathAsWritten | src/main_executors.rs:154-156 | Builds the hard-coded pending path `wdir/pending/{id}.json`. Its partners are Ingest.PendingPathAgreesByDefault and Ingest.HardcodedWdirMissesWatchedDir. |
| Ingest.QueryFields | src/main_executors.rs:15-21 | The query string splits on `&` into exactly the three `eventId`, `context` and `pwd` fields. |
| Ingest.WsUrlReadsBack | src/main_executors.rs:15-21 | Parsing the WebSocket URL back yields the base url, the context id, the context name and the password, when the base url contains no `?` and the values contain neither `?` nor `&`. |
| Ingest.PendingPathAgreesByDefault | src/main_executors.rs:154-156 | With the default work directory, the hard-coded pending path is the manager's pending path. |
| Ingest.HardcodedWdirMissesWatchedDir | src/main_executors.rs:154-156 | Under root `.` with any plain `work_dir_name` other than `wdir`, the pending record for any plain id is neither the job's file nor inside the watched directory. With `wdir` the two coincide (Ingest.PendingPathAgreesByDefault). |
| Ingest.PdfPathAgreesByDefault | src/main_executors.rs:110-112 | Under the default configuration, the pdf path stored in the record names the pdf's file in the store. |
| Ingest.Reject | src/main_executors.rs:46-53 | The error path writes exactly one error record, and writes it exactly when `error/` exists. |
| Ingest.HandleText | src/main_executors.rs:83-176 | A frame panics exactly in two cases: the notification has no id and the GET returned a response (of any status), or the frame must be rejected and `error/` is missing. A fully successful chain writes exactly the pdf and the pending record, with the record's local pdf path set. A failure before the pdf is written adds only one fresh error record, which is a default record carrying the frame. A failed pending write adds that record and keeps the written pdf. Nothing else changes. |
| Ingest.ParseFailureRecord | src/main_executors.rs:84-96 | A parse failure writes the error record with the parser's diagnostic and the frame, and nothing else. |
| Ingest.HandleTextKeepsUnique | src/main_executors.rs:83-176 | When the notification's id has no file in `ok/` or `error/`, and the fresh id names no file in `pending/` or `ok/`, handling a text frame keeps every job name in at most one queue directory. |
| Ingest.ResentIdBreaksUnique | src/main_executors.rs:154-161 | For every store holding `ok/{id}.json` and every accepted notification with that id, handling completes with `{id}.json` in both `pending/` and `ok/`. |
| Ingest.HandleTextOnce | src/main_executors.rs:154-161 | The corrected handling. A notification whose id is already in `ok/` or `error/` becomes an error record, and its pending file is left as it was. Any other frame is handled as the program does. |
| Ingest.HandleTextOnceKeepsUnique | src/main_executors.rs:154-161 | With the settled-id check, every frame keeps every job name in at most one queue directory, given only an unused fresh id. |
| Ingest.HandleFrame | src/main_executors.rs:67-81 | A transport error panics. A non-text frame panics. A text frame is handled as above. |
| Ingest.IngestLoop | src/main_executors.rs:55-178 | Ingestion never removes a file, never creates a directory and never touches `ok/`. It keeps every file inside an existing directory. |
| Ingest.CloseFlagCutsOff | src/main_executors.rs:55-65 | Items after a set close flag are never looked at. |
| Ingest.CloudFileManager | src/main_executors.rs:10-44 | A URL the client rejects panics, and so does a refused connection. Otherwise the frame loop runs. A completed run removes no file, creates no directory, leaves `ok/` alone and keeps every file inside an existing directory. |
| Ingest.FreshDeploymentRejectsDownloads | src/main_executors.rs:110-152 | On a freshly provisioned store, a fully successful download still ends as an error record (or a panic without `error/`), and nothing is ever pending. |
| Ingest.FullProvisioningQueuesDownloads | src/main_executors.rs:110-176 | After the corrected provisioning with nothing refused, a fully successful download is queued as the one pending job. |
| Ingest.QueuedJobImports | src/printer.rs:36-79 | The pending record ingestion queues is imported back as the parsed notification with its pdf path set. It is accepted exactly when the validator accepts it. |
| Dispatch.HandlePrintOps | src/main_executors.rs:241-268 | Dispatch is exactly one update of the job file followed by one move. The target is `ok/` exactly when the import is valid and printing succeeded. The stored record is the success-stamped record, the record with the print error, or the validator's record. The first two keep the imported id, url, original body and pdf path. |
| Dispatch.HandlePrint | src/main_executors.rs:241-268 | A job whose pending file is absent panics on import. Dispatch leaves every other job name's files alone and creates no directory. When all three queue directories exist, the job leaves the pending listing. |
| Dispatch.ApplyTwo | src/main_executors.rs:251-264 | The update and the move leave the files of every other name, and the job's files outside `pending/` and the target, unchanged. |
| Dispatch.DispatchSettles | src/main_executors.rs:241-268 | When the directories exist, the job ends in its target directory holding the updated record, and it is gone from `pending/`. |
| Dispatch.DispatchKeepsUnique | src/main_executors.rs:241-268 | A completed dispatch keeps every job name in at most one queue directory. |
| Dispatch.WatchStep | src/main_executors.rs:222-236 | A watcher error is logged and changes nothing. A non-create event changes nothing. A create event dispatches the file named by the event path, and panics when that path has no file name. No step creates a directory, and with the queue directories in place a step only ever removes names from `pending/` and keeps every job name in at most one queue directory. |
| Dispatch.WatchLoop | src/main_executors.rs:210-238 | The event loop creates no directory and keeps every file inside an existing directory. With the queue directories in place, the pending listing only ever shrinks and every job name stays in at most one queue directory. |
| Dispatch.CloseFlagCutsOff | src/main_executors.rs:210-220 | Ticks after a set close flag are never looked at. |
| Dispatch.CreateEventNamesJob | src/main_executors.rs:224-232 | A create event for a pending job's file dispatches that job under its queue name. |
| Dispatch.PrinterManagerRun | src/main_executors.rs:183-199 | A directory that cannot be watched ends the worker with nothing changed. Otherwise the event loop runs on the store. A completed run creates no directory and keeps every file inside an existing directory. With the queue directories in place, it only shrinks `pending/` and keeps every job name in at most one queue directory. |

## Left out

- Network, file system and processes: the WebSocket client, `reqwest`, `notify`, `std::fs` and `std::process::Command` are not executed. Their results are inputs to the model.
- File-system failures: only a missing directory makes `fs::write` or `fs::rename` fail. Permission errors, full disks and cross-device renames are not modelled.
- Serialization: JSON and YAML text is not modelled.
  - A stored job record is `Json(message)`, so it reads back as the same record.
  - Text that does not deserialize is `Garbled`.
  - The `unwrap` on `serde_json::to_string_pretty` of a record is not modelled, because it does not fail for this record type.
- Supervisor and entry points: the supervisor that runs the two workers on threads, the shared close-flag mutex, `main.rs` and the binaries are not part of this model. The close flag is an input read before each item.
- `generate_config_file`, the logger and the log messages are not modelled, because they have no effect on the queue. The one exception is the UTF-8 check inside a log statement of `print_file`; see PrinterManager.PrintFile below.
- `Printer::print_ticket` fires a process and ignores it, so it is not modelled.
- `Message::default`, `Message::import_with_path` and `Message::is_valid` are not part of this model. Their results are inputs:
  - a fresh id;
  - the imported outcome;
  - a validator function.
- `set_downloaded_file_path` and the two-argument `set_error` are not part of this model either. Their effect on the record was inferred from the calls:
  - `set_downloaded_file_path` sets the local pdf path;
  - a `Some` body is stored and `None` keeps the old one.
- Busy-file retry: `handle_print` imports the file once and never retries it, so the model has no retry.
- Dispatch.HandlePrint: the imported record is an input, tied to the store only by this rule: importing a file that is not in `pending/` panics, as `import_message` does (`printer.rs:45-55`). Its content is not tied to the stored record.
- File names that are not UTF-8: `to_str().unwrap()` at `main_executors.rs:231` panics on such a name. Model strings cannot represent one, so that panic is not modelled.
- Job ids as names: the store keys a file by its directory and name, and treats the name as opaque. An id from the remote side that contains `/`, or that is absolute, would escape `wdir/...` through `Path::join` (`main_executors.rs:110-112`, `154-156`). The store does not model that escape.
- One layout for three path constructions: the store uses one key for a file however it is reached. The source reaches it three ways: the provisioned and watched path `root_path/work_dir_name/<state>`, the manager's `work_dir_name/<state>`, and ingestion's fixed `wdir/<state>`. So the store-level contracts match the source only under the default configuration (root `.`, work directory `wdir`). Layout.DefaultLayoutAgrees, Ingest.PendingPathAgreesByDefault and Ingest.PdfPathAgreesByDefault prove the agreement there. The findings below show the disagreement otherwise.
- The message test (`message.rs:39-49`, a record built with no error reports no error) holds by construction of the record datatype, so no member states it.
- Record and configuration fields:
  - The record is the union of the fields the program uses: id, url, local pdf path, validity, print time, error and original body.
  - The configuration also carries the password, printer name and printer settings fields that the workers read. The configuration file cannot set them, so they keep their defaults.
  - The `websocket_url`, `context_id` and `context_name` fields of `config.rs` are the fields the ingestion worker reads as its URL, id and name.
- HTTP status: a response counts as a failure for status 400 to 599, because that is what `error_for_status_ref` rejects. A 1xx or 3xx status is therefore not a failure.
- A notification whose id is missing panics once the GET has returned a response, whatever its status. The panic comes before the status check. The program does not invent an id for it.
- Paths.FileName: models `Path::file_name` for `/`-separated paths only. Windows prefixes and `..` normalisation are not modelled.
- PrinterManager.PrintFile: assumes info logging is enabled. The UTF-8 `unwrap` at `printer_manager.rs:54` is an argument of `info!`, and the `log` macros evaluate their arguments only when that level is enabled. With info logging off, non-UTF-8 output is success rather than a panic. The logger's setup is not part of this model.
- PrinterManager.CommandLineReadsBack: holds only when no argument contains a space, because the logged line does not quote arguments.
- Ingest.WsUrlReadsBack: holds only when the base url contains no `?` and the values contain no `?` or `&`, because the program does not escape them.
- Ingest.HandleText: states that a rejection's record carries some diagnostic, but not which one. The exception is parse failures, whose diagnostic Ingest.ParseFailureRecord pins down.
- Ingest.HandleText: keeps every job name in at most one queue directory only when the id is not yet settled (Ingest.HandleTextKeepsUnique). Uniqueness over whole runs is proved for dispatch only (Dispatch.WatchLoop). Ingest.IngestLoop does not promise it, because the program re-queues a re-sent id (see Findings).
- Config.FromConfigFile: the YAML branches are unreachable, because the loop always stops after the JSON probe. The YAML parser is an input that is never called.

## Findings

The queue store keys files by state directory and name. That is the layout
provisioning creates and the watcher observes, `root_path/work_dir_name/<state>`,
given by `Layout.JobPath`. The rest of the model works in that corrected
layout.

| source | as written | input that shows it | evidently intended | confidence | as-written member | corrected member |
|---|---|---|---|---|---|---|
| src/main_executors.rs:154-156 | The pending record is written to the fixed path `wdir/pending/{id}.json`. | root `.` and `work_dir_name` = `jobs` (or any plain name other than `wdir`): the record lands in `./wdir/pending/`, while the watcher watches `./jobs/pending`. | Write under `root_path/work_dir_name/pending`, the directory that is watched. | medium, not executed | Ingest.HardcodedWdirMissesWatchedDir | Layout.WatcherSeesJobPath |
| src/message_manager.rs:28-36 | The manager's update and move paths are `work_dir_name/<state>/f`, without `root_path`. | `root_path` = `srv` (or any plain relative name): the watcher reports `srv/wdir/pending/a.json`, and the manager works on `wdir/pending/a.json`, whatever the working directory. An absolute root such as `/srv` misses too, unless the process runs in `/srv` (Layout.ManagerPathMissesRootedQueue). | Use `root_path/work_dir_name/<state>/f`, as provisioning and watching do. | medium, not executed | Layout.ManagerPathMissesRelativeRoot | Dispatch.CreateEventNamesJob |
| src/main_executors.rs:154-161 | The pending record is written whatever files already exist for the job id. | A store holding `ok/a.json`, and a re-sent notification with id `a` whose download succeeds: `pending/a.json` is written next to `ok/a.json`, and the watcher prints the job again. | A job id has at most one file across `pending/`, `ok/` and `error/`: a notification whose id is already settled is not queued again. | low, not executed | Ingest.ResentIdBreaksUnique | Ingest.HandleTextOnceKeepsUnique |
| src/dirs.rs:21 | Provisioning creates `pending`, `error` and `ok`, but not the `pdfs` directory the pdf is written to. | A fresh deployment and a notification whose download succeeds: the pdf write fails, and the job becomes an error record. | Create the pdf directory with the others. | high, not executed | Ingest.FreshDeploymentRejectsDownloads | Ingest.FullProvisioningQueuesDownloads |

=== FILE: config.dfy ===
/** Application configuration: defaults, the optional-field file overlay, and
    the probe for a configuration file on disk (`config.rs`). */
module Config {
  import opened Types

  /** The configuration the workers read.  The first eight fields are the ones
      `config.rs` declares (`websocket_url`, `context_id` and `context_name` are
      the endpoint fields the ingestion worker reads as `ws_url`,
      `ws_context_id`, `ws_context_name`); the last three are read by the
      workers but not declared there. */
  datatype AppConfig = AppConfig(
    configFileName: string,
    rootPath: string,
    workDirName: string,
    printerBin: string,
    printerArgs: seq<string>,
    wsUrl: string,
    contextId: string,
    contextName: string,
    contextPwd: string,
    printerName: string,
    printerSettings: string)

  /** `AppConfigFromFile`: every option the configuration file may set. */
  datatype FileConfig = FileConfig(
    rootPath: Option<string>,
    workDirName: Option<string>,
    printerBin: Option<string>,
    printerArgs: Option<seq<string>>,
    wsUrl: Option<string>,
    contextId: Option<string>,
    contextName: Option<string>)

  const DefaultFileName := "printclient.config"

  /** `AppConfig::default()`. */
  const Default := AppConfig(DefaultFileName, ".", "wdir", "cat", [], "", "", "", "", "", "")

  /** The overlay at the end of `from_config_file`: each option the file sets
      wins, every other field keeps its default, and the file name is always
      the default one.  No file at all yields the defaults. */
  function Merge(file: Option<FileConfig>): (c: AppConfig)
    ensures c.configFileName == DefaultFileName
    ensures file.None? ==> c == Default
    ensures file.Some? && file.value.rootPath.Some? ==> c.rootPath == file.value.rootPath.value
    ensures file.Some? && file.value.rootPath.None? ==> c.rootPath == "."
    ensures file.Some? && file.value.workDirName.Some? ==> c.workDirName == file.value.workDirName.value
    ensures file.Some? && file.value.workDirName.None? ==> c.workDirName == "wdir"
    ensures file.Some? && file.value.printerBin.Some? ==> c.printerBin == file.value.printerBin.value
    ensures file.Some? && file.value.printerBin.None? ==> c.printerBin == "cat"
    ensures file.Some? && file.value.printerArgs.Some? ==> c.printerArgs == file.value.printerArgs.value
    ensures file.Some? && file.value.printerArgs.None? ==> c.printerArgs == []
    ensures file.Some? ==> c.wsUrl == file.value.wsUrl.OrDefault("")
    ensures file.Some? ==> c.contextId == file.value.contextId.OrDefault("")
    ensures file.Some? ==> c.contextName == file.value.contextName.OrDefault("")
    ensures c.contextPwd == "" && c.printerName == "" && c.printerSettings == ""
  {
    match file
    case None => Default
    case Some(v) =>
      AppConfig(
        Default.configFileName,
        v.rootPath.OrDefault(Default.rootPath),
        v.workDirName.OrDefault(Default.workDirName),
        v.printerBin.OrDefault(Default.printerBin),
        v.printerArgs.OrDefault(Default.printerArgs),
        v.wsUrl.OrDefault(Default.wsUrl),
        v.contextId.OrDefault(Default.contextId),
        v.contextName.OrDefault(Default.contextName),
        Default.contextPwd,
        Default.printerName,
        Default.printerSettings)
  }

  /** The file a configuration would be saved as: every option present. */
  function ToFile(c: AppConfig): FileConfig {
    FileConfig(Some(c.rootPath), Some(c.workDirName), Some(c.printerBin), Some(c.printerArgs),
               Some(c.wsUrl), Some(c.contextId), Some(c.contextName))
  }

  /** A configuration the file can express: the fields the file cannot set hold
      their defaults. */
  predicate FileExpressible(c: AppConfig) {
    c.configFileName == DefaultFileName && c.contextPwd == "" && c.printerName == "" && c.printerSettings == ""
  }

  /** Reading back a fully written configuration file gives the configuration
      it was written from; in particular the file `generate_config_file` writes
      reads back as the defaults. */
  lemma MergeToFile(c: AppConfig)
    requires FileExpressible(c)
    ensures Merge(Some(ToFile(c))) == c
  {
  }

  /** A file that sets nothing yields the defaults. */
  lemma MergeEmptyFile()
    ensures Merge(Some(FileConfig(None, None, None, None, None, None, None))) == Default
  {
  }

  datatype FileSupported = Json | Yml | Yaml

  function Extension(f: FileSupported): string {
    match f
    case Json => "json"
    case Yml => "yml"
    case Yaml => "yaml"
  }

  /** The order in which `from_config_file` considers the formats. */
  const ProbeOrder: seq<FileSupported> := [Json, Yml, Yaml]

  /** `Path::new(".").join(format!("{}.{}", config_file_name, ext))`. */
  function ProbePath(f: FileSupported): string {
    "./" + DefaultFileName + "." + Extension(f)
  }

  /** `from_config_file`.  The file system and the two parsers are given as
      functions.  The loop body reads and parses one file and then leaves the
      loop (the source's unconditional `break`, expressed here by the guard on
      `configFile`); a read or parse failure panics.  So only the JSON file is
      ever looked at and the YAML formats are never consulted. */
  method FromConfigFile(
    read: string -> Result<string, string>,
    parseJson: string -> Option<FileConfig>,
    parseYaml: string -> Option<FileConfig>)
    returns (r: Run<AppConfig>, probed: seq<string>)
    ensures probed == ["./printclient.config.json"]
    ensures read(probed[0]).Err? ==> r == Panic(ReadFailed)
    ensures read(probed[0]).Ok? && parseJson(read(probed[0]).value).None? ==> r == Panic(ParseFailed)
    ensures read(probed[0]).Ok? && parseJson(read(probed[0]).value).Some? ==>
              r == Done(Merge(parseJson(read(probed[0]).value)))
  {
    assert ProbePath(Json) == "./printclient.config.json";
    var configFile: Option<FileConfig> := None;
    probed := [];
    var i := 0;
    while i < |ProbeOrder| && configFile.None?
      invariant 0 <= i <= 1
      invariant i == 0 <==> configFile.None?
      invariant i == 0 ==> probed == []
      invariant i == 1 ==> probed == [ProbePath(Json)] && read(ProbePath(Json)).Ok?
      invariant i == 1 ==> configFile == parseJson(read(ProbePath(Json)).value)
    {
      var ext := ProbeOrder[i];
      var path := ProbePath(ext);
      probed := probed + [path];
      var input := read(path);
      if input.Err? {
        return Panic(ReadFailed), probed;
      }
      var text := input.value;
      var parsed := if ext == Json then parseJson(text) else parseYaml(text);
      if parsed.None? {
        return Panic(ParseFailed), probed;
      }
      configFile := parsed;
      i := i + 1;
    }
    r := Done(Merge(configFile));
  }
}

=== FILE: dirs.dfy ===
/** `Dirs::generate_working_dir`: provisioning the queue directories
    (`dirs.rs`). */
module Dirs {
  import opened Queue
  import Config
  import Paths

  /** `root_path/work_dir_name`. */
  function WorkDir(cfg: Config.AppConfig): string {
    Paths.Join(cfg.rootPath, cfg.workDirName)
  }

  /** The directory of queue state `d` under the configured root. */
  function StateDir(cfg: Config.AppConfig, d: Dir): string {
    Paths.Join(WorkDir(cfg), DirName(d))
  }

  /** The directories created, in creation order. */
  function WorkingDirPaths(cfg: Config.AppConfig): seq<string> {
    [StateDir(cfg, PendingDir), StateDir(cfg, ErrorDir), StateDir(cfg, OkDir)]
  }

  /** `create_dir_all` on each of `paths` in turn.  `refused` stands for the
      paths whose creation fails.  A failure is only warned about: every path
      is attempted, in order, and every path not refused is created. */
  method CreateAll(paths: seq<string>, refused: set<string>)
    returns (attempted: seq<string>, created: set<string>)
    ensures attempted == paths
    ensures forall p :: p in created <==> p in paths && p !in refused
  {
    attempted := [];
    created := {};
    var i := 0;
    while i < |paths|
      invariant 0 <= i <= |paths|
      invariant attempted == paths[..i]
      invariant forall p :: p in created <==> p in paths[..i] && p !in refused
    {
      var path := paths[i];
      attempted := attempted + [path];
      if path !in refused {
        created := created + {path};
      }
      assert paths[..i + 1] == paths[..i] + [path];
      i := i + 1;
    }
    assert paths[..i] == paths;
  }

  /** `generate_working_dir`: the three queue directories, in order. */
  method GenerateWorkingDir(cfg: Config.AppConfig, refused: set<string>)
    returns (attempted: seq<string>, created: set<string>)
    ensures attempted == [StateDir(cfg, PendingDir), StateDir(cfg, ErrorDir), StateDir(cfg, OkDir)]
    ensures forall p :: p in created <==> p in WorkingDirPaths(cfg) && p !in refused
  {
    attempted, created := CreateAll(WorkingDirPaths(cfg), refused);
  }

  /** The queue directories that exist after provisioning created `created`.
      The pdf directory is not among them: nothing creates it. */
  function ProvisionedDirs(cfg: Config.AppConfig, created: set<string>): (ds: set<Dir>)
    ensures PdfsDir !in ds
  {
    set d | d in {PendingDir, ErrorDir, OkDir} && StateDir(cfg, d) in created
  }

  /** When nothing is refused, provisioning yields exactly the three queue
      directories, and still no pdf directory. */
  lemma ProvisionAll(cfg: Config.AppConfig, created: set<string>)
    requires forall p :: p in created <==> p in WorkingDirPaths(cfg)
    ensures ProvisionedDirs(cfg, created) == {PendingDir, ErrorDir, OkDir}
  {
    assert StateDir(cfg, PendingDir) in created;
    assert StateDir(cfg, ErrorDir) in created;
    assert StateDir(cfg, OkDir) in created;
  }

  /** Provisioning as the ingestion worker needs it: the pdf directory
      `root_path/work_dir_name/pdfs` is created after the three queue
      directories. */
  function WorkingDirPathsWithPdfs(cfg: Config.AppConfig): seq<string> {
    WorkingDirPaths(cfg) + [StateDir(cfg, PdfsDir)]
  }

  /** The corrected `generate_working_dir`. */
  method GenerateWorkingDirWithPdfs(cfg: Config.AppConfig, refused: set<string>)
    returns (attempted: seq<string>, created: set<string>)
    ensures |attempted| == 4 && attempted[..3] == WorkingDirPaths(cfg) && attempted[3] == StateDir(cfg, PdfsDir)
    ensures forall p :: p in created <==> p in WorkingDirPathsWithPdfs(cfg) && p !in refused
  {
    attempted, created := CreateAll(WorkingDirPathsWithPdfs(cfg), refused);
  }

  /** The directories that exist after the corrected provisioning created
      `created`: those of the provisioning as written, plus the pdf
      directory once its path is created. */
  function ProvisionedDirsWithPdfs(cfg: Config.AppConfig, created: set<string>): (ds: set<Dir>)
    ensures ds - {PdfsDir} == ProvisionedDirs(cfg, created)
    ensures PdfsDir in ds <==> StateDir(cfg, PdfsDir) in created
  {
    set d | d in {PendingDir, ErrorDir, OkDir, PdfsDir} && StateDir(cfg, d) in created
  }

  /** When nothing is refused, the corrected provisioning yields all four
      directories, the pdf directory among them. */
  lemma ProvisionAllWithPdfs(cfg: Config.AppConfig, created: set<string>)
    requires forall p :: p in created <==> p in WorkingDirPathsWithPdfs(cfg)
    ensures ProvisionedDirsWithPdfs(cfg, created) == {PendingDir, ErrorDir, OkDir, PdfsDir}
  {
    assert StateDir(cfg, PendingDir) in created;
    assert StateDir(cfg, ErrorDir) in created;
    assert StateDir(cfg, OkDir) in created;
    assert StateDir(cfg, PdfsDir) in created;
  }
}

=== FILE: dispatch.dfy ===
/** The dispatch worker, `printer_manager` / `watch` / `handle_print`
    (`main_executors.rs`): each create event in the watched `pending`
    directory leads to one print attempt and one move of the job file to
    `ok/` or `error/`.

    The watcher's events, the record `Message::import_with_path` returns, the
    operating system that launches the printer, and the clock are inputs. */
module Dispatch {
  import opened Types
  import opened Messages
  import opened Queue
  import opened MessageManager
  import opened PrinterManager
  import Config
  import Paths
  import Layout

  /** `notify::EventKind`. */
  datatype EventKind = Any | Access | Create | Modify | Remove | Other

  datatype Event = Event(kind: EventKind, paths: seq<string>)

  /** A change to the store, in the order `handle_print` makes them. */
  datatype StoreOp = Update(name: string, msg: Message) | Move(target: FileType, name: string)

  /** The changes `handle_print` makes for the job file `f`.  `imported` is the
      outcome of `Message::import_with_path(f)`: a record, or a record that
      already carries its failure.  The store changes are always exactly an
      update of `pending/f` followed by one move of it: to `ok/` when the
      record imported and the printer was launched, to `error/` otherwise.  A
      launch failure is recorded in the record's error; a success marks it
      valid and stamps the print time. */
  function HandlePrintOps(
    cfg: Config.AppConfig, f: string, imported: Result<Message, Message>,
    spawn: Command -> Result<Output, string>, now: Timestamp)
    : (r: Run<seq<StoreOp>>)
    ensures r.Panic? <==> imported.Ok? && PrintFile(cfg, imported.value, spawn).Panic?
    ensures r.Done? ==>
              && |r.value| == 2
              && r.value[0].Update? && r.value[0].name == f
              && r.value[1].Move? && r.value[1].name == f
    ensures r.Done? ==>
              (r.value[1].target == FileOk <==> imported.Ok? && PrintFile(cfg, imported.value, spawn) == Done(Ok(())))
    ensures r.Done? && r.value[1].target == FileOk ==>
              var m := r.value[0].msg;
              && m.isValid && m.printedAt == Some(now)
              && m.error == imported.value.error && m.pdfLocalPath == imported.value.pdfLocalPath
              && m.id == imported.value.id && m.pdfUrl == imported.value.pdfUrl
              && m.originalBody == imported.value.originalBody
    ensures r.Done? && imported.Ok? && r.value[1].target == FileError ==>
              var m := r.value[0].msg;
              && PrintFile(cfg, imported.value, spawn).value.Err?
              && m.error == Some(PrintFile(cfg, imported.value, spawn).value.error)
              && m.printedAt == imported.value.printedAt && m.isValid == imported.value.isValid
              && m.id == imported.value.id && m.pdfUrl == imported.value.pdfUrl
              && m.originalBody == imported.value.originalBody
              && m.pdfLocalPath == imported.value.pdfLocalPath
    ensures imported.Err? ==> r == Done([Update(f, imported.error), Move(FileError, f)])
  {
    match imported
    case Err(withError) => Done([Update(f, withError), Move(FileError, f)])
    case Ok(msg) =>
      match PrintFile(cfg, msg, spawn)
      case Panic(fault) => Panic(fault)
      case Done(Err(e)) => Done([Update(f, SetError(msg, e, None)), Move(FileError, f)])
      case Done(Ok(_)) => Done([Update(f, SetSuccessful(msg, now)), Move(FileOk, f)])
  }

  function ApplyOp(s: Store, op: StoreOp): Run<Store> {
    match op
    case Update(n, m) => UpdateMessage(s, n, m)
    case Move(t, n) => Done(MoveMessage(s, t, n))
  }

  /** The changes applied in order; the first panic ends the run. */
  function Apply(s: Store, ops: seq<StoreOp>): Run<Store>
    decreases |ops|
  {
    if |ops| == 0 then Done(s)
    else
      match ApplyOp(s, ops[0])
      case Panic(fault) => Panic(fault)
      case Done(s1) => Apply(s1, ops[1..])
  }

  /** `handle_print(f)`.  The import reads `pending/f`; reading a file that is
      not there panics, as `import_message` does, so a job is only ever
      dispatched from `pending/`. */
  function HandlePrint(
    s: Store, cfg: Config.AppConfig, f: string, imported: Result<Message, Message>,
    spawn: Command -> Result<Output, string>, now: Timestamp)
    : (r: Run<Store>)
    ensures (PendingDir, f) !in s.files ==> r == Panic(ReadFailed)
    ensures r.Done? ==> r.value.dirs == s.dirs
    ensures r.Done? ==> forall k: Key :: k.1 != f ==> Agree(s, r.value, k)
    ensures r.Done? && Wf(s) ==> Wf(r.value)
    ensures r.Done? && {PendingDir, OkDir, ErrorDir} <= s.dirs ==>
              Listing(r.value, PendingDir) == Listing(s, PendingDir) - {f}
  {
    if (PendingDir, f) !in s.files then Panic(ReadFailed)
    else
      match HandlePrintOps(cfg, f, imported, spawn, now)
      case Panic(fault) => Panic(fault)
      case Done(ops) =>
        var r := Apply(s, ops);
        ApplyTwo(s, ops);
        r
  }

  /** What applying an update of `pending/f` and then a move of it does. */
  lemma {:induction false} ApplyTwo(s: Store, ops: seq<StoreOp>)
    requires |ops| == 2 && ops[0].Update? && ops[1].Move? && ops[0].name == ops[1].name
    ensures var r := Apply(s, ops);
            && (r.Done? <==> PendingDir in s.dirs)
            && (r.Done? ==> r.value.dirs == s.dirs)
            && (r.Done? ==> forall k: Key :: k.1 != ops[0].name ==> Agree(s, r.value, k))
            && (r.Done? ==> forall d :: d != PendingDir && d != Target(ops[1].target) ==>
                              Agree(s, r.value, (d, ops[0].name)))
            && (r.Done? && Wf(s) ==> Wf(r.value))
            && (r.Done? && Target(ops[1].target) in s.dirs ==>
                  && (PendingDir, ops[0].name) !in r.value.files
                  && (Target(ops[1].target), ops[0].name) in r.value.files
                  && r.value.files[(Target(ops[1].target), ops[0].name)] == Json(ops[0].msg))
  {
    var f := ops[0].name;
    assert ops[1..][1..] == [];
    match UpdateMessage(s, f, ops[0].msg)
    case Panic(_) =>
    case Done(s1) =>
      var s2 := MoveMessage(s1, ops[1].target, f);
      assert ApplyOp(s, ops[0]) == Done(s1);
      assert ops[1..][0] == ops[1];
      assert ApplyOp(s1, ops[1]) == Done(s2);
      assert Apply(s2, ops[1..][1..]) == Done(s2);
      assert Apply(s1, ops[1..]) == Done(s2);
      assert Apply(s, ops) == Done(s2);
      forall k: Key | k.1 != f || (k.0 != PendingDir && k.0 != Target(ops[1].target))
        ensures Agree(s, s2, k)
      {
        assert Agree(s, s1, k) || k == (PendingDir, f);
        assert Agree(s1, s2, k);
      }
  }

  /** With the three queue directories in place, a dispatched job always
      settles: its file has left `pending/` and sits in exactly the directory
      the outcome chose, holding the record as `handle_print` updated it. */
  lemma {:induction false} DispatchSettles(
    s: Store, cfg: Config.AppConfig, f: string, imported: Result<Message, Message>,
    spawn: Command -> Result<Output, string>, now: Timestamp)
    requires {PendingDir, OkDir, ErrorDir} <= s.dirs
    requires (PendingDir, f) in s.files
    requires HandlePrintOps(cfg, f, imported, spawn, now).Done?
    ensures var ops := HandlePrintOps(cfg, f, imported, spawn, now).value;
            var r := HandlePrint(s, cfg, f, imported, spawn, now);
            && r.Done?
            && (PendingDir, f) !in r.value.files
            && (Target(ops[1].target), f) in r.value.files
            && r.value.files[(Target(ops[1].target), f)] == Json(ops[0].msg)
  {
    var ops := HandlePrintOps(cfg, f, imported, spawn, now).value;
    ApplyTwo(s, ops);
  }

  /** A dispatch that completes keeps every job name in at most one queue
      directory: the job was in `pending/` and nowhere else, and it ends in
      exactly one directory. */
  lemma {:induction false} DispatchKeepsUnique(
    s: Store, cfg: Config.AppConfig, f: string, imported: Result<Message, Message>,
    spawn: Command -> Result<Output, string>, now: Timestamp)
    requires {PendingDir, OkDir, ErrorDir} <= s.dirs
    requires AllUnique(s)
    requires HandlePrint(s, cfg, f, imported, spawn, now).Done?
    ensures AllUnique(HandlePrint(s, cfg, f, imported, spawn, now).value)
  {
    var ops := HandlePrintOps(cfg, f, imported, spawn, now).value;
    DispatchSettles(s, cfg, f, imported, spawn, now);
    var r := HandlePrint(s, cfg, f, imported, spawn, now).value;
    forall name ensures Unique(r, name) {
      assert Unique(s, name);
      if name != f {
        assert Agree(s, r, (PendingDir, name));
        assert Agree(s, r, (OkDir, name));
        assert Agree(s, r, (ErrorDir, name));
      } else {
        var other := if ops[1].target == FileOk then ErrorDir else OkDir;
        assert (other, f) !in s.files;
        ApplyTwo(s, ops);
        assert Agree(s, r, (other, f));
      }
    }
  }

  /** `DispatchKeepsUnique` with its hypotheses as antecedents. */
  lemma DispatchKeepsUniqueWhenDone(
    s: Store, cfg: Config.AppConfig, f: string, imported: Result<Message, Message>,
    spawn: Command -> Result<Output, string>, now: Timestamp)
    ensures var r := HandlePrint(s, cfg, f, imported, spawn, now);
            r.Done? && {PendingDir, OkDir, ErrorDir} <= s.dirs && AllUnique(s) ==> AllUnique(r.value)
  {
    if HandlePrint(s, cfg, f, imported, spawn, now).Done? && {PendingDir, OkDir, ErrorDir} <= s.dirs && AllUnique(s) {
      DispatchKeepsUnique(s, cfg, f, imported, spawn, now);
    }
  }

  // ---------------------------------------------------------------- the watch loop

  /** One iteration of the event loop: the close flag as read at its top, what
      the watcher delivered, and the outside outcomes for the job it names. */
  datatype Tick = Tick(
    closeFlag: bool,
    event: Result<Event, string>,
    imported: Result<Message, Message>,
    spawn: Command -> Result<Output, string>,
    now: Timestamp)

  /** The body of the event loop.  Only create events are acted on, with the
      base name of the event's path; other kinds and watcher errors change
      nothing.  A path without a file name panics. */
  function WatchStep(s: Store, cfg: Config.AppConfig, t: Tick): (r: Run<Store>)
    ensures t.event.Err? || !t.event.value.kind.Create? ==> r == Done(s)
    ensures t.event.Ok? && t.event.value.kind.Create? ==>
              match Paths.FileName(Paths.Collect(t.event.value.paths))
              case None => r == Panic(MissingFileName)
              case Some(n) => r == HandlePrint(s, cfg, n, t.imported, t.spawn, t.now)
    ensures r.Done? ==> r.value.dirs == s.dirs
    ensures r.Done? && Wf(s) ==> Wf(r.value)
    ensures r.Done? && {PendingDir, OkDir, ErrorDir} <= s.dirs ==>
              Listing(r.value, PendingDir) <= Listing(s, PendingDir)
    ensures r.Done? && {PendingDir, OkDir, ErrorDir} <= s.dirs && AllUnique(s) ==> AllUnique(r.value)
  {
    match t.event
    case Err(_) => Done(s)
    case Ok(ev) =>
      if !ev.kind.Create? then Done(s)
      else
        match Paths.FileName(Paths.Collect(ev.paths))
        case None => Panic(MissingFileName)
        case Some(n) =>
          DispatchKeepsUniqueWhenDone(s, cfg, n, t.imported, t.spawn, t.now);
          HandlePrint(s, cfg, n, t.imported, t.spawn, t.now)
  }

  /** The event loop of `watch`: the close flag is read before each event, and
      when it is set the loop ends without handling that event.  The loop never
      creates or removes a directory, and with the queue directories in place it
      only ever shrinks `pending/`. */
  function WatchLoop(s: Store, cfg: Config.AppConfig, ticks: seq<Tick>): (r: Run<Store>)
    ensures r.Done? ==> r.value.dirs == s.dirs
    ensures r.Done? && Wf(s) ==> Wf(r.value)
    ensures r.Done? && {PendingDir, OkDir, ErrorDir} <= s.dirs ==>
              Listing(r.value, PendingDir) <= Listing(s, PendingDir)
    ensures r.Done? && {PendingDir, OkDir, ErrorDir} <= s.dirs && AllUnique(s) ==> AllUnique(r.value)
    decreases |ticks|
  {
    if |ticks| == 0 || ticks[0].closeFlag then Done(s)
    else
      match WatchStep(s, cfg, ticks[0])
      case Panic(fault) => Panic(fault)
      case Done(s1) => WatchLoop(s1, cfg, ticks[1..])
  }

  /** Events after a set close flag are never looked at. */
  lemma {:induction false} CloseFlagCutsOff(s: Store, cfg: Config.AppConfig, before: seq<Tick>, closing: Tick, after: seq<Tick>)
    requires closing.closeFlag
    ensures WatchLoop(s, cfg, before + [closing] + after) == WatchLoop(s, cfg, before)
    decreases |before|
  {
    var all := before + [closing] + after;
    if |before| == 0 {
      assert all[0] == closing;
    } else {
      assert all[0] == before[0];
      assert all[1..] == before[1..] + [closing] + after;
      if !before[0].closeFlag {
        match WatchStep(s, cfg, before[0])
        case Panic(_) =>
        case Done(s1) => CloseFlagCutsOff(s1, cfg, before[1..], closing, after);
      }
    }
  }

  /** A create event for a job file in the watched directory is handled as that
      job: the name `handle_print` receives is the name the job is queued
      under. */
  lemma {:induction false} CreateEventNamesJob(
    s: Store, cfg: Config.AppConfig, f: string, t: Tick)
    requires Paths.PlainName(f)
    requires t.event == Ok(Event(Create, [Layout.JobPath(cfg, PendingDir, f)]))
    ensures WatchStep(s, cfg, t) == HandlePrint(s, cfg, f, t.imported, t.spawn, t.now)
  {
    Paths.CollectOne(Layout.JobPath(cfg, PendingDir, f));
    Layout.WatcherSeesJobPath(cfg, f);
  }

  /** `printer_manager`: watch `root/work/pending`.  If the watcher cannot be
      set up the error is logged and the worker returns normally, leaving the
      store as it was. */
  function PrinterManagerRun(cfg: Config.AppConfig, canWatch: string -> bool, s: Store, ticks: seq<Tick>)
    : (r: Run<Store>)
    ensures !canWatch(Layout.WatchedDir(cfg)) ==> r == Done(s)
    ensures canWatch(Layout.WatchedDir(cfg)) ==> r == WatchLoop(s, cfg, ticks)
    ensures r.Done? ==> r.value.dirs == s.dirs
    ensures r.Done? && Wf(s) ==> Wf(r.value)
    ensures r.Done? && {PendingDir, OkDir, ErrorDir} <= s.dirs ==>
              Listing(r.value, PendingDir) <= Listing(s, PendingDir)
    ensures r.Done? && {PendingDir, OkDir, ErrorDir} <= s.dirs && AllUnique(s) ==> AllUnique(r.value)
  {
    if canWatch(Layout.WatchedDir(cfg)) then WatchLoop(s, cfg, ticks) else Done(s)
  }
}

=== FILE: ingest.dfy ===
/** The ingestion worker, `cloud_file_manager` (`main_executors.rs`): one
    websocket frame at a time, a notification becomes either a queued job in
    `pending/` or a fresh error record in `error/`.

    Every outside effect is an input: the websocket gives frames or transport
    errors, the JSON parser's verdict on the frame text, the HTTP GET's outcome,
    the id `Message::default()` would draw, and the text of an I/O error.  The
    two `fs::write`s act on the store and fail when their directory is
    missing. */
module Ingest {
  import opened Types
  import opened Strings
  import opened Messages
  import opened Queue
  import Config
  import Paths
  import Dirs
  import Layout
  import MessageManager
  import Printer

  // ---------------------------------------------------------------- the url

  /** The query part of the websocket url: event id, context name and
      password as three parameters, none of them escaped. */
  function Query(cfg: Config.AppConfig): string {
    ("eventId=" + cfg.contextId) + "&" + (("context=" + cfg.contextName) + "&" + ("pwd=" + cfg.contextPwd))
  }

  /** The websocket url: `{ws_url}?eventId={id}&context={name}&pwd={pwd}`. */
  function WsUrl(cfg: Config.AppConfig): string {
    cfg.wsUrl + "?" + Query(cfg)
  }

  datatype WsParams = WsParams(endpoint: string, eventId: string, context: string, pwd: string)

  /** How the server reads such a url back: the endpoint before the `?`, then
      three `&`-separated parameters in a fixed order. */
  function ParseWsUrl(u: string): Option<WsParams> {
    var halves := Split(u, '?');
    if |halves| != 2 then None
    else
      var fields := Split(halves[1], '&');
      if |fields| == 3 && StartsWith(fields[0], "eventId=") && StartsWith(fields[1], "context=")
         && StartsWith(fields[2], "pwd=")
      then Some(WsParams(halves[0], fields[0][8..], fields[1][8..], fields[2][4..]))
      else None
  }

  /** The configured values a url can carry unambiguously. */
  predicate UrlSafe(cfg: Config.AppConfig) {
    && Free(cfg.wsUrl, '?')
    && Free(cfg.contextId, '?') && Free(cfg.contextName, '?') && Free(cfg.contextPwd, '?')
    && Free(cfg.contextId, '&') && Free(cfg.contextName, '&') && Free(cfg.contextPwd, '&')
  }

  lemma {:induction false} QueryFields(cfg: Config.AppConfig)
    requires UrlSafe(cfg)
    ensures Split(Query(cfg), '&') == ["eventId=" + cfg.contextId, "context=" + cfg.contextName, "pwd=" + cfg.contextPwd]
    ensures Free(Query(cfg), '?')
  {
    var f0, f1, f2 := "eventId=" + cfg.contextId, "context=" + cfg.contextName, "pwd=" + cfg.contextPwd;
    FreeConcat("eventId=", cfg.contextId, '&');
    FreeConcat("context=", cfg.contextName, '&');
    FreeConcat("pwd=", cfg.contextPwd, '&');
    SplitFree(f0, '&');
    SplitFree(f1, '&');
    SplitFree(f2, '&');
    SplitAround(f1, '&', f2);
    SplitAround(f0, '&', f1 + "&" + f2);
    FreeConcat("eventId=", cfg.contextId, '?');
    FreeConcat("context=", cfg.contextName, '?');
    FreeConcat("pwd=", cfg.contextPwd, '?');
    FreeConcat(f1, "&", '?');
    FreeConcat(f1 + "&", f2, '?');
    FreeConcat(f0, "&", '?');
    FreeConcat(f0 + "&", f1 + "&" + f2, '?');
  }

  /** The url carries exactly the configured endpoint, event id, context and
      password, provided the endpoint has no `?` and no value contains `?` or
      `&` (the values are not escaped, so a password with `&` in it would be
      cut short). */
  lemma {:induction false} WsUrlReadsBack(cfg: Config.AppConfig)
    requires UrlSafe(cfg)
    ensures ParseWsUrl(WsUrl(cfg)) == Some(WsParams(cfg.wsUrl, cfg.contextId, cfg.contextName, cfg.contextPwd))
  {
    QueryFields(cfg);
    SplitFree(cfg.wsUrl, '?');
    SplitFree(Query(cfg), '?');
    SplitAround(cfg.wsUrl, '?', Query(cfg));
    var f0, f1, f2 := "eventId=" + cfg.contextId, "context=" + cfg.contextName, "pwd=" + cfg.contextPwd;
    assert f0[8..] == cfg.contextId && f1[8..] == cfg.contextName && f2[4..] == cfg.contextPwd;
  }

  // ---------------------------------------------------------------- inputs

  /** `websocket::OwnedMessage`. */
  datatype Frame = Text(text: string) | Binary(data: seq<bv8>) | Close | Ping(p: seq<bv8>) | Pong(p: seq<bv8>)

  /** The HTTP response: status code, the text `error_for_status_ref` would
      give, and the outcome of reading the body. */
  datatype Response = Response(status: nat, statusError: string, body: Result<seq<bv8>, string>)

  /** The outcomes of the outside steps for one text frame. */
  datatype FrameEffects = FrameEffects(
    parsed: Result<Message, string>,   // `serde_json::from_str` of the frame text
    get: Result<Response, string>,     // `reqwest::blocking::get(pdf_url)`
    writeError: string,                // the text of a failed `fs::write`
    freshId: string)                   // the id `Message::default()` draws

  /** One iteration of the frame loop: the close flag as read at its top, the
      item the websocket yielded, and the outside outcomes for it. */
  datatype Inbound = Inbound(closeFlag: bool, item: Result<Frame, string>, fx: FrameEffects)

  /** What building and connecting the websocket client does with a url. */
  datatype Connection = BadUrl | ConnectRefused | Connected

  // ---------------------------------------------------------------- paths

  /** The pdf location: `wdir/pdfs/{id}.pdf`, with the work directory fixed
      to "wdir" whatever the configuration says. */
  function PdfPath(id: string): string {
    Paths.Join(Paths.Join("wdir", "pdfs"), id + ".pdf")
  }

  /** The pending record location as the source builds it: `wdir/pending/{id}.json`. */
  function PendingJsonPathAsWritten(id: string): string {
    Paths.Join(Paths.Join("wdir", "pending"), id + ".json")
  }

  /** Under the default configuration the ingestion worker's pending path is
      the message manager's. */
  lemma PendingPathAgreesByDefault(id: string)
    ensures PendingJsonPathAsWritten(id) == MessageManager.QueuePath(Config.Default, PendingDir, id + ".json")
  {
  }

  /** With the default root and any work directory other than "wdir", the
      pending record is written outside the watched directory, so the job is
      never dispatched.  Both paths are read from the process's working
      directory, "."; with the default work directory they name the same file
      (`PendingPathAgreesByDefault`, `Layout.DefaultLayoutAgrees`). */
  lemma {:induction false} HardcodedWdirMissesWatchedDir(cfg: Config.AppConfig, id: string)
    requires cfg.rootPath == "." && Paths.PlainName(cfg.workDirName) && cfg.workDirName != "wdir"
    requires Paths.PlainName(id + ".json")
    ensures "./" + PendingJsonPathAsWritten(id) != Layout.JobPath(cfg, PendingDir, id + ".json")
    ensures !StartsWith("./" + PendingJsonPathAsWritten(id), Layout.WatchedDir(cfg) + "/")
  {
    var n := id + ".json";
    var w := cfg.workDirName;
    assert n[0] != '/' && w[0] != '/' && w[|w| - 1] != '/';
    var p := "./" + PendingJsonPathAsWritten(id);
    assert p == "./wdir/pending/" + n;
    var d := "./" + w + "/";
    var job := Layout.JobPath(cfg, PendingDir, n);
    var watched := Layout.WatchedDir(cfg) + "/";
    assert Paths.Join(".", w) == "./" + w;
    assert watched == d + "pending/";
    assert job == d + "pending/" + n;
    // a position inside `d` where the written path differs from it
    var k: nat;
    if |w| < 4 {
      k := |w| + 2;
      assert p[k] == "wdir"[|w|];
    } else if |w| > 4 {
      k := 6;
      assert d[k] == w[4];
    } else {
      var i :| 0 <= i < 4 && w[i] != "wdir"[i];
      k := i + 2;
      assert d[k] == w[i];
    }
    assert k < |d| && k < |p| && p[k] != d[k];
    assert job[k] == d[k] && watched[k] == d[k];
  }

  /** Under the default configuration the pdf path a record carries names the
      pdf's file in the store: `wdir/pdfs/{id}.pdf` read from ".". */
  lemma PdfPathAgreesByDefault(id: string)
    requires !Paths.IsAbsolute(id + ".pdf")
    ensures "./" + PdfPath(id) == Layout.JobPath(Config.Default, PdfsDir, PdfKey(id).1)
  {
    assert Paths.Join(".", "wdir") == "./wdir";
    assert Paths.Join("./wdir", "pdfs") == "./wdir/pdfs";
  }

  // ---------------------------------------------------------------- one frame

  /** `error_for_status_ref` fails on client (4xx) and server (5xx) errors. */
  predicate ErrorStatus(status: nat) {
    400 <= status < 600
  }

  function PendingKey(id: string): Key { (PendingDir, id + ".json") }
  function PdfKey(id: string): Key { (PdfsDir, id + ".pdf") }
  function ErrorKey(freshId: string): Key { (ErrorDir, freshId + ".json") }

  /** The notification parsed and was downloaded, but carries no id. */
  predicate MissingId(fx: FrameEffects) {
    fx.parsed.Ok? && fx.get.Ok? && fx.parsed.value.id.None?
  }

  /** The notification parsed with an id, the download succeeded and the pdf
      write can succeed (its directory exists): everything up to and including
      writing the pdf. */
  predicate Downloaded(fx: FrameEffects, dirs: set<Dir>) {
    && fx.parsed.Ok? && fx.parsed.value.id.Some?
    && fx.get.Ok? && !ErrorStatus(fx.get.value.status) && fx.get.value.body.Ok?
    && PdfsDir in dirs
  }

  /** Every step of the chain succeeds: the pdf is written and so is the
      pending record (its directory exists too). */
  predicate Accepted(fx: FrameEffects, dirs: set<Dir>) {
    Downloaded(fx, dirs) && PendingDir in dirs
  }

  /** `s'` is `s` plus the downloaded pdf and the pending record, which is the
      parsed notification with its local pdf path set to where the pdf was
      written; nothing else changed. */
  ghost predicate Queued(s: Store, s': Store, msg: Message, bytes: seq<bv8>)
    requires msg.id.Some?
  {
    var id := msg.id.value;
    && s'.dirs == s.dirs
    && PdfKey(id) in s'.files && s'.files[PdfKey(id)] == Pdf(bytes)
    && PendingKey(id) in s'.files && s'.files[PendingKey(id)] == Json(msg.(pdfLocalPath := Some(PdfPath(id))))
    && forall k :: k != PdfKey(id) && k != PendingKey(id) ==> Agree(s, s', k)
  }

  /** `error/{freshId}.json` in `s'` holds a default record (not the parsed
      one) stamped with a diagnostic and the original frame text. */
  ghost predicate ErrorRecordAt(s': Store, freshId: string, frame: string) {
    var k := ErrorKey(freshId);
    && k in s'.files && s'.files[k].Json?
    && s'.files[k].msg.id == Some(freshId)
    && s'.files[k].msg.originalBody == Some(frame)
    && s'.files[k].msg.error.Some?
    && s'.files[k].msg.pdfLocalPath.None? && s'.files[k].msg.printedAt.None?
    && !s'.files[k].msg.isValid && s'.files[k].msg.pdfUrl == ""
  }

  /** `s'` is `s` plus one fresh error record and nothing else: in particular
      `pending/` and `pdfs/` are untouched. */
  ghost predicate Rejected(s: Store, s': Store, freshId: string, frame: string) {
    && s'.dirs == s.dirs
    && ErrorRecordAt(s', freshId, frame)
    && forall k :: k != ErrorKey(freshId) ==> Agree(s, s', k)
  }

  /** `s'` is `s` plus the downloaded pdf and one fresh error record: the
      pending write failed after the pdf was written, and the pdf stays. */
  ghost predicate RejectedAfterDownload(s: Store, s': Store, freshId: string, frame: string, id: string, bytes: seq<bv8>) {
    && s'.dirs == s.dirs
    && ErrorRecordAt(s', freshId, frame)
    && PdfKey(id) in s'.files && s'.files[PdfKey(id)] == Pdf(bytes)
    && forall k :: k != ErrorKey(freshId) && k != PdfKey(id) ==> Agree(s, s', k)
  }

  /** `handle_error`: save a fresh default record stamped with the diagnostic
      and the frame text into `error/`; `save_error_message` panics if it
      cannot write. */
  function Reject(s: Store, freshId: string, diag: string, frame: string): (r: Run<Store>)
    ensures r.Done? <==> ErrorDir in s.dirs
    ensures r.Panic? ==> r.fault == WriteFailed
    ensures r.Done? ==> Overwrote(s, r.value, ErrorKey(freshId), Json(ErrorRecord(freshId, diag, frame)))
    ensures r.Done? && Wf(s) ==> Wf(r.value)
  {
    MessageManager.SaveErrorMessage(s, freshId + ".json", ErrorRecord(freshId, diag, frame))
  }

  /** The handling of one text frame. */
  function HandleText(s: Store, frame: string, fx: FrameEffects): (r: Run<Store>)
    ensures r.Panic? <==> MissingId(fx) || (!Accepted(fx, s.dirs) && ErrorDir !in s.dirs)
    ensures r.Done? && Accepted(fx, s.dirs) ==> Queued(s, r.value, fx.parsed.value, fx.get.value.body.value)
    ensures r.Done? && !Downloaded(fx, s.dirs) ==> Rejected(s, r.value, fx.freshId, frame)
    ensures r.Done? && Downloaded(fx, s.dirs) && !Accepted(fx, s.dirs) ==>
              RejectedAfterDownload(s, r.value, fx.freshId, frame, fx.parsed.value.id.value, fx.get.value.body.value)
    ensures r.Done? && Wf(s) ==> Wf(r.value)
  {
    match fx.parsed
    case Err(diag) => Reject(s, fx.freshId, diag, frame)
    case Ok(msg) =>
      match fx.get
      case Err(diag) => Reject(s, fx.freshId, diag, frame)
      case Ok(resp) =>
        if msg.id.None? then Panic(MissingJobId)
        else if ErrorStatus(resp.status) then Reject(s, fx.freshId, resp.statusError, frame)
        else
          match resp.body
          case Err(diag) => Reject(s, fx.freshId, diag, frame)
          case Ok(bytes) =>
            var id := msg.id.value;
            var job := SetDownloadedFilePath(msg, PdfPath(id));
            match TryWrite(s, PdfKey(id), Pdf(bytes))
            case None => Reject(s, fx.freshId, fx.writeError, frame)
            case Some(s1) =>
              match TryWrite(s1, PendingKey(id), Json(job))
              case None => Reject(s1, fx.freshId, fx.writeError, frame)
              case Some(s2) => Done(s2)
  }

  /** A parse failure writes exactly the fresh error record carrying the
      parser's diagnostic and the frame, and nothing else. */
  lemma ParseFailureRecord(s: Store, frame: string, fx: FrameEffects)
    requires fx.parsed.Err? && ErrorDir in s.dirs
    ensures HandleText(s, frame, fx) == Done(s.(files := s.files[ErrorKey(fx.freshId) := Json(ErrorRecord(fx.freshId, fx.parsed.error, frame))]))
  {
  }

  /** A job's record is settled once it sits in `ok/` or `error/`. */
  predicate Settled(s: Store, id: string) {
    (OkDir, id + ".json") in s.files || (ErrorDir, id + ".json") in s.files
  }

  /** The fresh id of an error record names no file in `pending/` or `ok/`. */
  predicate FreshIdUnused(s: Store, freshId: string) {
    (PendingDir, freshId + ".json") !in s.files && (OkDir, freshId + ".json") !in s.files
  }

  /** Ingestion keeps every job name in at most one queue directory, provided
      the notification's id is not settled yet and the fresh id is unused. */
  lemma {:induction false} HandleTextKeepsUnique(s: Store, frame: string, fx: FrameEffects)
    requires AllUnique(s) && FreshIdUnused(s, fx.freshId)
    requires fx.parsed.Ok? && fx.parsed.value.id.Some? ==> !Settled(s, fx.parsed.value.id.value)
    ensures HandleText(s, frame, fx).Done? ==> AllUnique(HandleText(s, frame, fx).value)
  {
    var r := HandleText(s, frame, fx);
    if r.Done? {
      var s' := r.value;
      forall name
        ensures Unique(s', name)
      {
        assert Unique(s, name);
        assert Agree(s, s', (OkDir, name));
        if Accepted(fx, s.dirs) {
          assert Agree(s, s', (ErrorDir, name));
          if name != fx.parsed.value.id.value + ".json" {
            assert Agree(s, s', (PendingDir, name));
          }
        } else {
          assert Agree(s, s', (PendingDir, name));
          if name != fx.freshId + ".json" {
            assert Agree(s, s', (ErrorDir, name));
          }
        }
      }
    }
  }

  /** The pending record is written whatever exists for the id: a re-sent
      notification for a job already in `ok/` queues it a second time, so the
      id then has a file in both `pending/` and `ok/`. */
  lemma ResentIdBreaksUnique(s: Store, frame: string, fx: FrameEffects)
    requires Accepted(fx, s.dirs)
    requires (OkDir, fx.parsed.value.id.value + ".json") in s.files
    ensures HandleText(s, frame, fx).Done?
    ensures !Unique(HandleText(s, frame, fx).value, fx.parsed.value.id.value + ".json")
  {
    var s' := HandleText(s, frame, fx).value;
    assert Agree(s, s', (OkDir, fx.parsed.value.id.value + ".json"));
  }

  const DuplicateDiag: string := "job id already processed"

  /** Text-frame handling with the settled-id check that uniqueness needs: a
      notification whose id is already settled becomes an error record and is
      not queued again; any other frame is handled as before. */
  function HandleTextOnce(s: Store, frame: string, fx: FrameEffects): (r: Run<Store>)
    ensures fx.parsed.Ok? && fx.parsed.value.id.Some? && Settled(s, fx.parsed.value.id.value) ==>
              r == Reject(s, fx.freshId, DuplicateDiag, frame)
    ensures !(fx.parsed.Ok? && fx.parsed.value.id.Some? && Settled(s, fx.parsed.value.id.value)) ==>
              r == HandleText(s, frame, fx)
    ensures r.Done? && fx.parsed.Ok? && fx.parsed.value.id.Some? ==>
              Agree(s, r.value, PendingKey(fx.parsed.value.id.value)) || !Settled(s, fx.parsed.value.id.value)
  {
    if fx.parsed.Ok? && fx.parsed.value.id.Some? && Settled(s, fx.parsed.value.id.value) then
      Reject(s, fx.freshId, DuplicateDiag, frame)
    else HandleText(s, frame, fx)
  }

  /** With the settled-id check, ingestion keeps every job name in at most one
      queue directory for every frame, given only an unused fresh id. */
  lemma {:induction false} HandleTextOnceKeepsUnique(s: Store, frame: string, fx: FrameEffects)
    requires AllUnique(s) && FreshIdUnused(s, fx.freshId)
    ensures HandleTextOnce(s, frame, fx).Done? ==> AllUnique(HandleTextOnce(s, frame, fx).value)
  {
    var r := HandleTextOnce(s, frame, fx);
    if fx.parsed.Ok? && fx.parsed.value.id.Some? && Settled(s, fx.parsed.value.id.value) {
      if r.Done? {
        var s' := r.value;
        forall name
          ensures Unique(s', name)
        {
          assert Unique(s, name);
          assert Agree(s, s', (OkDir, name));
          assert Agree(s, s', (PendingDir, name));
          if name != fx.freshId + ".json" {
            assert Agree(s, s', (ErrorDir, name));
          }
        }
      }
    } else {
      HandleTextKeepsUnique(s, frame, fx);
    }
  }

  /** A transport error or a frame other than text is fatal and never becomes
      an error record. */
  function HandleFrame(s: Store, item: Result<Frame, string>, fx: FrameEffects): (r: Run<Store>)
    ensures item.Err? ==> r == Panic(TransportFailed)
    ensures item.Ok? && !item.value.Text? ==> r == Panic(NonTextFrame)
    ensures item.Ok? && item.value.Text? ==> r == HandleText(s, item.value.text, fx)
  {
    match item
    case Err(_) => Panic(TransportFailed)
    case Ok(Text(t)) => HandleText(s, t, fx)
    case Ok(_) => Panic(NonTextFrame)
  }

  // ---------------------------------------------------------------- the loop

  /** The frame loop: the close flag is read before each item, and when it is
      set the loop ends without handling that item.  Ingestion only ever adds
      or overwrites files: it never removes one, never creates a directory and
      never touches `ok/`. */
  function IngestLoop(s: Store, items: seq<Inbound>): (r: Run<Store>)
    ensures r.Done? ==> r.value.dirs == s.dirs
    ensures r.Done? ==> s.files.Keys <= r.value.files.Keys
    ensures r.Done? ==> forall n :: Agree(s, r.value, (OkDir, n))
    ensures r.Done? && Wf(s) ==> Wf(r.value)
    decreases |items|
  {
    if |items| == 0 || items[0].closeFlag then Done(s)
    else
      match HandleFrame(s, items[0].item, items[0].fx)
      case Panic(f) => Panic(f)
      case Done(s1) =>
        assert forall n :: Agree(s, s1, (OkDir, n));
        IngestLoop(s1, items[1..])
  }

  /** Items after a set close flag are never looked at: the loop's outcome is
      the outcome of the items before it. */
  lemma {:induction false} CloseFlagCutsOff(s: Store, before: seq<Inbound>, closing: Inbound, after: seq<Inbound>)
    requires closing.closeFlag
    ensures IngestLoop(s, before + [closing] + after) == IngestLoop(s, before)
    decreases |before|
  {
    var all := before + [closing] + after;
    if |before| == 0 {
      assert all[0] == closing;
    } else {
      assert all[0] == before[0];
      assert all[1..] == before[1..] + [closing] + after;
      if !before[0].closeFlag {
        match HandleFrame(s, before[0].item, before[0].fx)
        case Panic(_) =>
        case Done(s1) => CloseFlagCutsOff(s1, before[1..], closing, after);
      }
    }
  }

  /** `cloud_file_manager`: connect to the url built from the configuration
      (a bad url or a refused connection panics), then run the frame loop. */
  function CloudFileManager(cfg: Config.AppConfig, connect: string -> Connection, s: Store, items: seq<Inbound>)
    : (r: Run<Store>)
    ensures connect(WsUrl(cfg)) == BadUrl ==> r == Panic(UrlRejected)
    ensures connect(WsUrl(cfg)) == ConnectRefused ==> r == Panic(ConnectFailed)
    ensures connect(WsUrl(cfg)) == Connected ==> r == IngestLoop(s, items)
    ensures r.Done? ==> r.value.dirs == s.dirs
    ensures r.Done? ==> s.files.Keys <= r.value.files.Keys
    ensures r.Done? ==> forall n :: Agree(s, r.value, (OkDir, n))
    ensures r.Done? && Wf(s) ==> Wf(r.value)
  {
    match connect(WsUrl(cfg))
    case BadUrl => Panic(UrlRejected)
    case ConnectRefused => Panic(ConnectFailed)
    case Connected => IngestLoop(s, items)
  }

  /** A fresh deployment cannot queue anything: provisioning never creates the
      pdf directory, so a notification whose download fully succeeds still
      ends as an error record (or, with `error/` missing too, a panic). */
  lemma {:induction false} FreshDeploymentRejectsDownloads(
    cfg: Config.AppConfig, created: set<string>, frame: string, fx: FrameEffects)
    requires fx.parsed.Ok? && fx.parsed.value.id.Some?
    requires fx.get.Ok? && !ErrorStatus(fx.get.value.status) && fx.get.value.body.Ok?
    ensures var s := Store(Dirs.ProvisionedDirs(cfg, created), map[]);
            var r := HandleText(s, frame, fx);
            && (ErrorDir in s.dirs ==> r.Done? && Rejected(s, r.value, fx.freshId, frame))
            && (ErrorDir !in s.dirs ==> r == Panic(WriteFailed))
            && (r.Done? ==> Listing(r.value, PendingDir) == {})
  {
    var s := Store(Dirs.ProvisionedDirs(cfg, created), map[]);
    assert !Accepted(fx, s.dirs);
    var r := HandleText(s, frame, fx);
    if r.Done? {
      forall n ensures (PendingDir, n) !in r.value.files {
        assert Agree(s, r.value, (PendingDir, n));
      }
    }
  }

  /** After the corrected provisioning with nothing refused (what
      `Dirs.GenerateWorkingDirWithPdfs(cfg, {})` creates), a notification whose
      download fully succeeds is queued: the pdf and the pending record are
      written and nothing else changes. */
  lemma FullProvisioningQueuesDownloads(
    cfg: Config.AppConfig, created: set<string>, frame: string, fx: FrameEffects)
    requires forall p :: p in created <==> p in Dirs.WorkingDirPathsWithPdfs(cfg)
    requires fx.parsed.Ok? && fx.parsed.value.id.Some?
    requires fx.get.Ok? && !ErrorStatus(fx.get.value.status) && fx.get.value.body.Ok?
    ensures var s := Store(Dirs.ProvisionedDirsWithPdfs(cfg, created), map[]);
            var r := HandleText(s, frame, fx);
            && r.Done?
            && Queued(s, r.value, fx.parsed.value, fx.get.value.body.value)
            && Listing(r.value, PendingDir) == {PendingKey(fx.parsed.value.id.value).1}
  {
    var s := Store(Dirs.ProvisionedDirsWithPdfs(cfg, created), map[]);
    Dirs.ProvisionAllWithPdfs(cfg, created);
    assert Accepted(fx, s.dirs);
    var r := HandleText(s, frame, fx);
    var k := PendingKey(fx.parsed.value.id.value);
    forall n | n != k.1 ensures (PendingDir, n) !in r.value.files {
      assert Agree(s, r.value, (PendingDir, n));
    }
  }

  /** The handoff between the two workers: the pending record ingestion
      queues is read back by `import_message` as the parsed notification with
      its pdf path set, accepted exactly when the validator accepts it. */
  lemma QueuedJobImports(
    s: Store, frame: string, fx: FrameEffects, validate: Message -> Result<(), Message>)
    requires Accepted(fx, s.dirs)
    ensures var id := fx.parsed.value.id.value;
            var job := SetDownloadedFilePath(fx.parsed.value, PdfPath(id));
            var r := HandleText(s, frame, fx);
            && r.Done?
            && (validate(job).Ok? ==> Printer.ImportMessage(r.value, PendingKey(id).1, validate) == Done(Ok(job)))
            && (validate(job).Err? ==> Printer.ImportMessage(r.value, PendingKey(id).1, validate) == Done(Err(validate(job).error)))
  {
  }
}

=== FILE: layout.dfy ===
/** Where the file of a queue entry lives on disk.

    The store keys a file by its queue state and name.  The directories that
    `Dirs::generate_working_dir` creates and the watcher observes are
    `root_path/work_dir_name/<state>`; `JobPath` puts an entry's file there.
    The ingestion worker and the message manager build shorter paths of their
    own (see `Ingest.PendingJsonPathAsWritten` and `MessageManager.QueuePath`),
    which reach the same files only under the default configuration. */
module Layout {
  import opened Types
  import Strings
  import opened Queue
  import Config
  import Paths
  import Dirs
  import MessageManager

  /** The file of entry `(d, f)`. */
  function JobPath(cfg: Config.AppConfig, d: Dir, f: string): string {
    Paths.Join(Dirs.StateDir(cfg, d), f)
  }

  /** The directory the dispatch worker watches: `root/work/pending`. */
  function WatchedDir(cfg: Config.AppConfig): string {
    Paths.Join(Paths.Join(cfg.rootPath, cfg.workDirName), "pending")
  }

  /** The watched directory is the first directory provisioning creates. */
  lemma WatchedDirIsProvisioned(cfg: Config.AppConfig)
    ensures WatchedDir(cfg) == Dirs.WorkingDirPaths(cfg)[0]
  {
  }

  /** A pending job's file lies in the watched directory, and the name the
      watcher reports for it is the name it is queued under, for every
      configuration: the file the watcher reports is the file the dispatch
      step then updates and moves. */
  lemma {:induction false} WatcherSeesJobPath(cfg: Config.AppConfig, f: string)
    requires Paths.PlainName(f)
    ensures JobPath(cfg, PendingDir, f) == Paths.Join(WatchedDir(cfg), f)
    ensures Paths.FileName(JobPath(cfg, PendingDir, f)) == Some(f)
  {
    Paths.FileNameOfJoin(WatchedDir(cfg), f);
  }

  /** Under the default configuration the message manager's paths name the
      same files as `JobPath`, up to the leading "./". */
  lemma DefaultLayoutAgrees(d: Dir, f: string)
    requires !Paths.IsAbsolute(f)
    ensures JobPath(Config.Default, d, f) == "./" + MessageManager.QueuePath(Config.Default, d, f)
  {
    var dn := DirName(d);
    assert dn != "" && dn[0] != '/';
    assert Paths.Join(".", "wdir") == "./wdir";
    assert Dirs.StateDir(Config.Default, d) == "./wdir/" + dn;
    assert Paths.Join("wdir", dn) == "wdir/" + dn;
  }

  /** With an absolute root and a relative work directory, the manager's
      pending path is relative and the job's path absolute: as strings, the
      former (with its "./") is neither the latter nor inside the watched
      directory.  They name different files unless the process runs in
      `root_path` itself; the model has no working directory, and
      `ManagerPathMissesRelativeRoot` gives a witness that holds in any.  For
      root "/srv" the watcher reports `/srv/wdir/pending/a.json` while the
      manager updates and moves `./wdir/pending/a.json`. */
  lemma {:induction false} ManagerPathMissesRootedQueue(cfg: Config.AppConfig, f: string)
    requires Paths.IsAbsolute(cfg.rootPath) && !Paths.IsAbsolute(cfg.workDirName)
    requires Paths.PlainName(f)
    ensures "./" + MessageManager.QueuePath(cfg, PendingDir, f) != JobPath(cfg, PendingDir, f)
    ensures !Strings.StartsWith("./" + MessageManager.QueuePath(cfg, PendingDir, f), WatchedDir(cfg))
  {
    var work := Paths.Join(cfg.rootPath, cfg.workDirName);
    Paths.JoinKeepsAbsolute(cfg.rootPath, cfg.workDirName);
    Paths.JoinKeepsAbsolute(work, DirName(PendingDir));
    Paths.JoinKeepsAbsolute(Dirs.StateDir(cfg, PendingDir), f);
    Paths.JoinKeepsAbsolute(work, "pending");
    var q := "./" + MessageManager.QueuePath(cfg, PendingDir, f);
    assert q[0] == '.';
    assert JobPath(cfg, PendingDir, f)[0] == '/';
    assert WatchedDir(cfg)[0] == '/';
  }

  /** With a relative root other than ".", the job's file is the manager's
      path one level further down, under `root_path`: read from any working
      directory the two relative paths name different files.  For root "srv"
      the watcher reports `srv/wdir/pending/a.json` while the manager updates
      and moves `wdir/pending/a.json`. */
  lemma {:induction false} ManagerPathMissesRelativeRoot(cfg: Config.AppConfig, f: string)
    requires Paths.PlainName(cfg.rootPath) && Paths.PlainName(cfg.workDirName) && Paths.PlainName(f)
    ensures JobPath(cfg, PendingDir, f) == cfg.rootPath + "/" + MessageManager.QueuePath(cfg, PendingDir, f)
    ensures MessageManager.QueuePath(cfg, PendingDir, f) != JobPath(cfg, PendingDir, f)
  {
    var root, work := cfg.rootPath, cfg.workDirName;
    assert root[0] != '/' && root[|root| - 1] != '/';
    assert work[0] != '/' && work[|work| - 1] != '/';
    assert f[0] != '/';
    assert Paths.Join(root, work) == root + "/" + work;
    assert Paths.Join(work, "pending") == work + "/pending";
  }

  /** An absolute work directory replaces the root in every join, so then the
      manager's paths are the job's files whatever the root. */
  lemma ManagerPathWithAbsoluteWorkDir(cfg: Config.AppConfig, d: Dir, f: string)
    requires Paths.IsAbsolute(cfg.workDirName)
    ensures MessageManager.QueuePath(cfg, d, f) == JobPath(cfg, d, f)
  {
  }
}

=== FILE: message.dfy ===
/** The job record (`struct Message`) and its mutators.

    The record carries the union of the fields the callers use: `message.rs`
    declares `pdf_url`, `is_valid`, `printed_at` and `error`; the call sites in
    `main_executors.rs` and `printer_manager.rs` also read `id`,
    `pdf_local_path` and pass the original frame text to `set_error`. */
module Messages {
  import opened Types

  /** A point in time (`DateTime<Utc>`), abstracted as a count of ticks. */
  type Timestamp = nat

  datatype Message = Message(
    id: Option<string>,            // queue file stem
    pdfUrl: string,                // where the pdf is downloaded from
    pdfLocalPath: Option<string>,  // where the downloaded pdf was stored
    isValid: bool,
    printedAt: Option<Timestamp>,
    error: Option<string>,         // last failure diagnostic
    originalBody: Option<string>)  // frame text kept for a failed notification

  /** `Message::default()`: an empty record stamped with a freshly drawn id. */
  function DefaultMessage(freshId: string): (m: Message)
    ensures m.id == Some(freshId)
    ensures m.error.None? && m.printedAt.None? && m.pdfLocalPath.None? && m.originalBody.None?
    ensures !m.isValid && m.pdfUrl == ""
  {
    Message(Some(freshId), "", None, false, None, None, None)
  }

  /** `set_error(error, original_body)`: records the diagnostic; a given body
      is kept as the original text, an absent one leaves the field as it was.
      With `body == None` this is the one-argument `set_error` of `message.rs`. */
  function SetError(m: Message, e: string, body: Option<string>): (r: Message)
    ensures r.error == Some(e)
    ensures body.Some? ==> r.originalBody == body
    ensures body.None? ==> r.originalBody == m.originalBody
    ensures r.id == m.id && r.pdfUrl == m.pdfUrl && r.pdfLocalPath == m.pdfLocalPath
    ensures r.isValid == m.isValid && r.printedAt == m.printedAt
  {
    m.(error := Some(e), originalBody := if body.Some? then body else m.originalBody)
  }

  /** `set_successful()`: marks the record valid and stamps the print time. */
  function SetSuccessful(m: Message, now: Timestamp): (r: Message)
    ensures r.isValid && r.printedAt == Some(now)
    ensures r.error == m.error && r.pdfUrl == m.pdfUrl && r.id == m.id
    ensures r.pdfLocalPath == m.pdfLocalPath && r.originalBody == m.originalBody
  {
    m.(isValid := true, printedAt := Some(now))
  }

  /** `set_downloaded_file_path(p)`: remembers where the pdf was stored. */
  function SetDownloadedFilePath(m: Message, p: string): (r: Message)
    ensures r.pdfLocalPath == Some(p)
    ensures r == m.(pdfLocalPath := r.pdfLocalPath)
  {
    m.(pdfLocalPath := Some(p))
  }

  /** The record written to `error/` for a notification that never became a
      pending job: a fresh default record carrying the diagnostic and the
      original frame text. */
  function ErrorRecord(freshId: string, diag: string, frame: string): (m: Message)
    ensures m.id == Some(freshId) && m.error == Some(diag) && m.originalBody == Some(frame)
    ensures m.pdfLocalPath.None? && m.printedAt.None? && !m.isValid && m.pdfUrl == ""
  {
    SetError(DefaultMessage(freshId), diag, Some(frame))
  }

  /** Recording the same failure twice is recording it once. */
  lemma SetErrorIdempotent(m: Message, e: string, body: Option<string>)
    ensures SetError(SetError(m, e, body), e, body) == SetError(m, e, body)
  {
  }

  /** The two mutators touch disjoint fields, so their order does not matter;
      in particular `set_successful` never clears an earlier error. */
  lemma SetErrorSetSuccessfulCommute(m: Message, e: string, body: Option<string>, now: Timestamp)
    ensures SetSuccessful(SetError(m, e, body), now) == SetError(SetSuccessful(m, now), e, body)
    ensures SetSuccessful(SetError(m, e, body), now).error == Some(e)
  {
  }
}

=== FILE: message_manager.dfy ===
/** `MessageManager`: the three operations the dispatch and ingestion workers
    apply to queued job files (`message_manager.rs`). */
module MessageManager {
  import opened Types
  import opened Messages
  import opened Queue
  import Config
  import Paths

  /** `FileType`: the terminal directory a job is moved to. */
  datatype FileType = FileOk | FileError

  function Target(t: FileType): (d: Dir)
    ensures d != PendingDir && d != PdfsDir
  {
    match t
    case FileOk => OkDir
    case FileError => ErrorDir
  }

  /** The path the manager uses for file `f` of directory `d`:
      `work_dir_name/d/f`, relative to the process's working directory; the
      configured `root_path` plays no part. */
  function QueuePath(cfg: Config.AppConfig, d: Dir, f: string): string {
    Paths.Join(Paths.Join(cfg.workDirName, DirName(d)), f)
  }

  /** The manager's paths are the same whatever `root_path` says. */
  lemma QueuePathIgnoresRoot(cfg: Config.AppConfig, root: string, d: Dir, f: string)
    ensures QueuePath(cfg.(rootPath := root), d, f) == QueuePath(cfg, d, f)
  {
  }

  /** `move_message(status, f)`: renames `pending/f` into the target directory.
      A failed rename is only logged: the store is left as it was and the
      caller is not told. */
  function MoveMessage(s: Store, t: FileType, f: string): (r: Store)
    ensures r.dirs == s.dirs
    ensures (PendingDir, f) in s.files && Target(t) in s.dirs ==>
              Relocated(s, r, (PendingDir, f), (Target(t), f))
    ensures !((PendingDir, f) in s.files && Target(t) in s.dirs) ==> r == s
    ensures Wf(s) ==> Wf(r)
  {
    Rename(s, (PendingDir, f), (Target(t), f))
  }

  /** Moving the same file to the same place twice is moving it once: the
      second rename finds nothing in `pending` (or fails exactly as the first
      did) and changes nothing. */
  lemma MoveIdempotent(s: Store, t: FileType, f: string)
    ensures MoveMessage(MoveMessage(s, t, f), t, f) == MoveMessage(s, t, f)
  {
  }

  /** Once a file has left `pending`, no further move of it, to either
      directory, changes anything: a second move never creates a duplicate. */
  lemma MoveAfterMoveIsNoop(s: Store, t: FileType, t': FileType, f: string)
    requires MoveMessage(s, t, f) != s
    ensures MoveMessage(MoveMessage(s, t, f), t', f) == MoveMessage(s, t, f)
  {
  }

  /** A move keeps every job name in at most one queue directory. */
  lemma {:induction false} MovePreservesUnique(s: Store, t: FileType, f: string)
    requires AllUnique(s)
    ensures AllUnique(MoveMessage(s, t, f))
  {
    var r := MoveMessage(s, t, f);
    if (PendingDir, f) in s.files && Target(t) in s.dirs {
      forall name ensures Unique(r, name) {
        if name != f {
          assert Unique(s, name);
          assert Agree(s, r, (PendingDir, name));
          assert Agree(s, r, (OkDir, name));
          assert Agree(s, r, (ErrorDir, name));
        } else {
          assert Unique(s, f);
          var other := if t == FileOk then ErrorDir else OkDir;
          assert Agree(s, r, (other, f));
        }
      }
    }
  }

  /** `update_message(f, m)`: overwrites `pending/f` with the serialized
      record; a failed write panics.  No other file changes. */
  function UpdateMessage(s: Store, f: string, m: Message): (r: Run<Store>)
    ensures r.Done? <==> PendingDir in s.dirs
    ensures r.Panic? ==> r.fault == WriteFailed
    ensures r.Done? ==> Overwrote(s, r.value, (PendingDir, f), Json(m))
    ensures r.Done? && Wf(s) ==> Wf(r.value)
  {
    match TryWrite(s, (PendingDir, f), Json(m))
    case Some(s') => Done(s')
    case None => Panic(WriteFailed)
  }

  /** `save_error_message(f, m)`: writes the serialized record to `error/f`; a
      failed write panics.  `pending` is never touched. */
  function SaveErrorMessage(s: Store, f: string, m: Message): (r: Run<Store>)
    ensures r.Done? <==> ErrorDir in s.dirs
    ensures r.Panic? ==> r.fault == WriteFailed
    ensures r.Done? ==> Overwrote(s, r.value, (ErrorDir, f), Json(m))
    ensures r.Done? ==> Listing(r.value, PendingDir) == Listing(s, PendingDir)
    ensures r.Done? && Wf(s) ==> Wf(r.value)
  {
    match TryWrite(s, (ErrorDir, f), Json(m))
    case Some(s') =>
      assert forall n :: (PendingDir, n) != (ErrorDir, f) ==> Agree(s, s', (PendingDir, n));
      Done(s')
    case None => Panic(WriteFailed)
  }
}

=== FILE: paths.dfy ===
/** Unix path strings as Rust's `Path`/`PathBuf` builds and reads them.

    Only the operations the program uses are modelled: `join` (appending one
    component), `collect` of a list of paths, and `file_name`. */
module Paths {
  import opened Types
  import opened Strings

  const Sep: char := '/'

  predicate IsAbsolute(p: string) {
    |p| > 0 && p[0] == Sep
  }

  /** `Path::new(base).join(comp)`: an absolute `comp` replaces `base`; otherwise a
      separator is inserted unless `base` is empty or already ends in one. */
  function Join(base: string, comp: string): (r: string)
    ensures IsAbsolute(comp) ==> r == comp
    ensures !IsAbsolute(comp) && (|base| == 0 || base[|base| - 1] == Sep) ==> r == base + comp
    ensures !IsAbsolute(comp) && |base| > 0 && base[|base| - 1] != Sep ==> r == base + [Sep] + comp
  {
    if IsAbsolute(comp) then comp
    else if |base| == 0 || base[|base| - 1] == Sep then base + comp
    else base + [Sep] + comp
  }

  /** Joining onto an absolute path, or joining an absolute component, gives
      an absolute path. */
  lemma JoinKeepsAbsolute(base: string, comp: string)
    requires IsAbsolute(base) || IsAbsolute(comp)
    ensures IsAbsolute(Join(base, comp))
  {
    if !IsAbsolute(comp) {
      assert Join(base, comp)[0] == base[0];
    }
  }

  /** `paths.iter().collect::<PathBuf>()`: each path pushed onto an initially
      empty path, left to right. */
  function Collect(paths: seq<string>): string
    decreases |paths|
  {
    if |paths| == 0 then "" else Join(Collect(paths[..|paths| - 1]), paths[|paths| - 1])
  }

  /** A single path collects to itself. */
  lemma CollectOne(p: string)
    ensures Collect([p]) == p
  {
    assert [p][..0] == [];
  }

  /** The pieces of `p` that `Path::components` reports as names: empty
      pieces (repeated or trailing separators) and "." are dropped. */
  function Names(pieces: seq<string>): (r: seq<string>)
    ensures forall i :: 0 <= i < |r| ==> r[i] != "" && r[i] != "."
    decreases |pieces|
  {
    if |pieces| == 0 then []
    else
      var rest := Names(pieces[..|pieces| - 1]);
      var last := pieces[|pieces| - 1];
      if last == "" || last == "." then rest else rest + [last]
  }

  /** `Path::file_name`: the last component when it is a normal name; none for
      an empty path, the root, "." or a path ending in "..". */
  function FileName(p: string): (r: Option<string>)
    ensures r.Some? ==> r.value != "" && r.value != "." && r.value != ".."
  {
    var names := Names(Split(p, Sep));
    if |names| == 0 || names[|names| - 1] == ".." then None
    else Some(names[|names| - 1])
  }

  /** A name the program can use as one path component. */
  predicate PlainName(n: string) {
    n != "" && n != "." && n != ".." && Free(n, Sep)
  }

  /** Joining a plain name onto any relative-or-absolute directory yields a path
      whose file name is that name: what the watcher reports for a file created
      in a directory is the name it was created under. */
  lemma {:induction false} FileNameOfJoin(dir: string, n: string)
    requires PlainName(n)
    ensures FileName(Join(dir, n)) == Some(n)
  {
    SplitFree(n, Sep);
    var p := Join(dir, n);
    if |dir| == 0 {
      assert p == n;
    } else if dir[|dir| - 1] == Sep {
      var front := dir[..|dir| - 1];
      assert p == front + [Sep] + n;
      SplitAround(front, Sep, n);
      NamesAppend(Split(front, Sep), n);
    } else {
      assert p == dir + [Sep] + n;
      SplitAround(dir, Sep, n);
      NamesAppend(Split(dir, Sep), n);
    }
  }

  lemma NamesAppend(pieces: seq<string>, n: string)
    requires n != "" && n != "."
    ensures Names(pieces + [n]) == Names(pieces) + [n]
  {
    assert (pieces + [n])[..|pieces|] == pieces;
  }
}

=== FILE: printer.dfy ===
/** `Printer`, the earlier dispatch helper (`printer.rs`): importing a pending
    record and a three-way move.  Kept separate from `MessageManager`, which
    superseded it; `MoveAgreesWithManager` relates the two. */
module Printer {
  import opened Types
  import opened Messages
  import opened Queue
  import MessageManager

  datatype PrintStatus = StatusOk | StatusError | StatusPending

  /** `import_message(path)`: reads and deserializes `pending/path`, panicking
      when the file is missing or does not deserialize, then runs the record's
      own validation, `is_valid`, given here as `validate`: the record comes
      back as `Ok` exactly when validation passes, otherwise the record the
      validation returned comes back as `Err`. */
  function ImportMessage(s: Store, path: string, validate: Message -> Result<(), Message>)
    : (r: Run<Result<Message, Message>>)
    ensures (PendingDir, path) !in s.files ==> r == Panic(ReadFailed)
    ensures (PendingDir, path) in s.files && !s.files[(PendingDir, path)].Json? ==> r == Panic(ParseFailed)
    ensures r.Done? ==> (PendingDir, path) in s.files && s.files[(PendingDir, path)].Json?
    ensures r.Done? ==>
              var m := s.files[(PendingDir, path)].msg;
              && (r.value.Ok? <==> validate(m).Ok?)
              && (r.value.Ok? ==> r.value.value == m)
              && (r.value.Err? ==> r.value.error == validate(m).error)
  {
    if (PendingDir, path) !in s.files then Panic(ReadFailed)
    else
      match s.files[(PendingDir, path)]
      case Json(m) =>
        (match validate(m)
         case Ok(_) => Done(Ok(m))
         case Err(withError) => Done(Err(withError)))
      case _ => Panic(ParseFailed)
  }

  /** `move_message(status, path, message)`: `Ok` and `Error` rename
      `pending/path` into `ok/` or `error/`, `Pending` does nothing; a failed
      rename is only logged, and the result is `Ok(())` in every case. */
  function MoveMessage(s: Store, status: PrintStatus, path: string): (r: (Store, Result<(), Message>))
    ensures r.1 == Ok(())
    ensures status == StatusPending ==> r.0 == s
    ensures status == StatusOk && (PendingDir, path) in s.files && OkDir in s.dirs ==>
              Relocated(s, r.0, (PendingDir, path), (OkDir, path))
    ensures status == StatusError && (PendingDir, path) in s.files && ErrorDir in s.dirs ==>
              Relocated(s, r.0, (PendingDir, path), (ErrorDir, path))
    ensures (PendingDir, path) !in s.files ==> r.0 == s
  {
    match status
    case StatusOk => (Rename(s, (PendingDir, path), (OkDir, path)), Ok(()))
    case StatusError => (Rename(s, (PendingDir, path), (ErrorDir, path)), Ok(()))
    case StatusPending => (s, Ok(()))
  }

  /** On `Ok` and `Error` the earlier move and the manager's move have the
      same effect on the store. */
  lemma MoveAgreesWithManager(s: Store, path: string)
    ensures MoveMessage(s, StatusOk, path).0 == MessageManager.MoveMessage(s, MessageManager.FileOk, path)
    ensures MoveMessage(s, StatusError, path).0 == MessageManager.MoveMessage(s, MessageManager.FileError, path)
  {
  }
}

=== FILE: printer_manager.dfy ===
/** `PrinterManager::print_file`: the command that prints a job's pdf, and
    what counts as success (`printer_manager.rs`). */
module PrinterManager {
  import opened Types
  import opened Strings
  import opened Messages
  import Config
  import Paths

  /** A program and its argument vector, as handed to `Command::new(..).args(..)`. */
  datatype Command = Command(exe: string, args: seq<string>)

  /** What `Command::output` collects from a process that was launched. */
  datatype Output = Output(exitCode: int, stdoutUtf8: bool)

  /** The printer executable: `root_path` joined with `printer_bin` (an
      absolute `printer_bin` is used as it is). */
  function Executable(cfg: Config.AppConfig): (exe: string)
    ensures !Paths.IsAbsolute(cfg.printerBin) && |cfg.rootPath| > 0 && cfg.rootPath[|cfg.rootPath| - 1] != '/' ==>
              exe == cfg.rootPath + "/" + cfg.printerBin
    ensures !Paths.IsAbsolute(cfg.printerBin) && (cfg.rootPath == "" || cfg.rootPath[|cfg.rootPath| - 1] == '/') ==>
              exe == cfg.rootPath + cfg.printerBin
    ensures Paths.IsAbsolute(cfg.printerBin) ==> exe == cfg.printerBin
  {
    Paths.Join(cfg.rootPath, cfg.printerBin)
  }

  /** The fixed argument template: destination, settings, then the pdf. */
  function PrintArgs(cfg: Config.AppConfig, pdfPath: string): seq<string> {
    ["-print-to", cfg.printerName, "-print-settings", cfg.printerSettings, pdfPath]
  }

  function PrintCommand(cfg: Config.AppConfig, pdfPath: string): Command {
    Command(Executable(cfg), PrintArgs(cfg, pdfPath))
  }

  /** The command line written to the log: the executable, a space, and the
      arguments joined by spaces. */
  function CommandLine(c: Command): string {
    c.exe + " " + JoinWith(c.args, ' ')
  }

  /** The logged command line determines the command: split at spaces it gives
      back the executable followed by the five arguments, the pdf path last,
      provided none of them contains a space (the log line is ambiguous for,
      say, a printer name with a space; the command itself is not). */
  lemma {:induction false} CommandLineReadsBack(cfg: Config.AppConfig, pdfPath: string)
    requires AllFree([Executable(cfg)] + PrintArgs(cfg, pdfPath), ' ')
    ensures var parts := Split(CommandLine(PrintCommand(cfg, pdfPath)), ' ');
            && |parts| == 6
            && parts[0] == Executable(cfg)
            && parts[1..] == ["-print-to", cfg.printerName, "-print-settings", cfg.printerSettings, pdfPath]
            && parts[5] == pdfPath
  {
    var c := PrintCommand(cfg, pdfPath);
    var all := [c.exe] + c.args;
    assert JoinWith(all, ' ') == CommandLine(c) by {
      assert all[0] == c.exe && all[1..] == c.args;
    }
    SplitJoin(all, ' ');
  }

  /** `print_file(m)`.  The operating system is `spawn`: it receives the
      command and reports either the collected output or the launch error's
      text.  A launched command is success whatever its exit status; a launch
      failure is `Err` with the error text.  A record without a local pdf path,
      or printer output that is not UTF-8, panics; the latter check sits in an
      info-level log statement, so this assumes info logging is enabled. */
  function PrintFile(cfg: Config.AppConfig, m: Message, spawn: Command -> Result<Output, string>)
    : (r: Run<Result<(), string>>)
    ensures m.pdfLocalPath.None? ==> r == Panic(MissingLocalPdf)
    ensures m.pdfLocalPath.Some? ==>
              var out := spawn(PrintCommand(cfg, m.pdfLocalPath.value));
              && (out.Err? ==> r == Done(Err(out.error)))
              && (out.Ok? && out.value.stdoutUtf8 ==> r == Done(Ok(())))
              && (out.Ok? && !out.value.stdoutUtf8 ==> r == Panic(StdoutNotUtf8))
  {
    match m.pdfLocalPath
    case None => Panic(MissingLocalPdf)
    case Some(pdf) =>
      match spawn(PrintCommand(cfg, pdf))
      case Err(e) => Done(Err(e))
      case Ok(output) =>
        if output.stdoutUtf8 then Done(Ok(())) else Panic(StdoutNotUtf8)
  }

  /** The exit status plays no part in the verdict. */
  lemma ExitStatusIgnored(cfg: Config.AppConfig, m: Message, code1: int, code2: int)
    ensures PrintFile(cfg, m, _ => Ok(Output(code1, true))) == PrintFile(cfg, m, _ => Ok(Output(code2, true)))
    ensures m.pdfLocalPath.Some? ==> PrintFile(cfg, m, _ => Ok(Output(code1, true))) == Done(Ok(()))
  {
  }
}

=== FILE: queue.dfy ===
/** The queue store: the work directory as a state.

    A job's state is the directory its file sits in.  The store records which
    of the work directory's sub-directories exist and what every file in them
    holds.  Two file-system primitives act on it: `fs::write`, which fails when
    the target directory is missing, and `fs::rename`, which fails when the
    source file or the target directory is missing and otherwise replaces any
    file already at the target. */
module Queue {
  import opened Types
  import opened Messages

  datatype Dir = PendingDir | OkDir | ErrorDir | PdfsDir

  /** What a file holds: a serialized job record, downloaded pdf bytes, or
      text that does not deserialize to a record. */
  datatype Content = Json(msg: Message) | Pdf(bytes: seq<bv8>) | Garbled(text: string)

  /** The sub-directory's name on disk. */
  function DirName(d: Dir): string {
    match d
    case PendingDir => "pending"
    case OkDir => "ok"
    case ErrorDir => "error"
    case PdfsDir => "pdfs"
  }

  type Key = (Dir, string)

  datatype Store = Store(dirs: set<Dir>, files: map<Key, Content>)

  /** Every file lives in a directory that exists. */
  ghost predicate Wf(s: Store) {
    forall k :: k in s.files ==> k.0 in s.dirs
  }

  /** Key `k` has the same presence and content in both stores. */
  ghost predicate Agree(s: Store, s': Store, k: Key) {
    && (k in s.files <==> k in s'.files)
    && (k in s.files ==> s.files[k] == s'.files[k])
  }

  /** `s'` is `s` with key `k` set to `c` and nothing else changed. */
  ghost predicate Overwrote(s: Store, s': Store, k: Key, c: Content) {
    && s'.dirs == s.dirs
    && k in s'.files && s'.files[k] == c
    && forall k' :: k' != k ==> Agree(s, s', k')
  }

  /** `s'` is `s` with the file at `from` relocated to `to`, replacing whatever
      was at `to`, and nothing else changed. */
  ghost predicate Relocated(s: Store, s': Store, from: Key, to: Key) {
    && s'.dirs == s.dirs
    && from in s.files && from !in s'.files
    && to in s'.files && s'.files[to] == s.files[from]
    && forall k :: k != from && k != to ==> Agree(s, s', k)
  }

  /** `fs::write(k, c)`: `None` when the directory is missing. */
  function TryWrite(s: Store, k: Key, c: Content): (r: Option<Store>)
    ensures r.Some? <==> k.0 in s.dirs
    ensures r.Some? ==> Overwrote(s, r.value, k, c)
    ensures r.Some? && Wf(s) ==> Wf(r.value)
  {
    if k.0 in s.dirs then Some(s.(files := s.files[k := c])) else None
  }

  /** `fs::rename(from, to)`, with a failed rename leaving the store as it was
      (which is all the program does with the error). */
  function Rename(s: Store, from: Key, to: Key): (r: Store)
    requires from.0 != to.0
    ensures from in s.files && to.0 in s.dirs ==> Relocated(s, r, from, to)
    ensures !(from in s.files && to.0 in s.dirs) ==> r == s
    ensures Wf(s) ==> Wf(r)
  {
    if from in s.files && to.0 in s.dirs then
      s.(files := (s.files - {from})[to := s.files[from]])
    else s
  }

  /** The job file `name` is in at most one of the three queue directories. */
  ghost predicate Unique(s: Store, name: string) {
    && ((PendingDir, name) in s.files ==> (OkDir, name) !in s.files && (ErrorDir, name) !in s.files)
    && ((OkDir, name) in s.files ==> (ErrorDir, name) !in s.files)
  }

  ghost predicate AllUnique(s: Store) {
    forall name :: Unique(s, name)
  }

  /** The names of the files in directory `d`. */
  function Listing(s: Store, d: Dir): set<string> {
    set k | k in s.files && k.0 == d :: k.1
  }
}

=== FILE: strings.dfy ===
/** Joining strings with a one-character separator and splitting them again.

    `JoinWith` is what Rust's `[String]::join` and `format!` chains build;
    `Split` is its partner, used to state that the strings the program builds
    can be read back. */
module Strings {

  /** `c` occurs nowhere in `s`. */
  predicate Free(s: string, c: char) {
    forall i :: 0 <= i < |s| ==> s[i] != c
  }

  /** `c` occurs in none of `parts`. */
  predicate AllFree(parts: seq<string>, c: char) {
    forall i :: 0 <= i < |parts| ==> Free(parts[i], c)
  }

  /** The parts, separated by `sep`; the empty sequence joins to "". */
  function JoinWith(parts: seq<string>, sep: char): string
    decreases |parts|
  {
    if |parts| == 0 then ""
    else if |parts| == 1 then parts[0]
    else parts[0] + [sep] + JoinWith(parts[1..], sep)
  }

  /** The maximal `sep`-free pieces of `s`, left to right; there is always at
      least one piece, and "" splits into [""]. */
  function Split(s: string, sep: char): (r: seq<string>)
    ensures |r| >= 1
    ensures AllFree(r, sep)
    decreases |s|
  {
    if |s| == 0 then [""]
    else
      var rest := Split(s[1..], sep);
      if s[0] == sep then [""] + rest
      else [[s[0]] + rest[0]] + rest[1..]
  }

  function StartsWith(s: string, prefix: string): bool {
    |prefix| <= |s| && s[..|prefix|] == prefix
  }

  /** A string without the separator is a single piece. */
  lemma {:induction false} SplitFree(s: string, sep: char)
    requires Free(s, sep)
    ensures Split(s, sep) == [s]
    decreases |s|
  {
    if |s| > 0 {
      SplitFree(s[1..], sep);
      assert [s[0]] + s[1..] == s;
    }
  }

  /** Splitting around one separator splits each side independently. */
  lemma {:induction false} SplitAround(a: string, sep: char, b: string)
    ensures Split(a + [sep] + b, sep) == Split(a, sep) + Split(b, sep)
    decreases |a|
  {
    var s := a + [sep] + b;
    if |a| == 0 {
      assert s[0] == sep && s[1..] == b;
    } else {
      assert s[0] == a[0];
      assert s[1..] == a[1..] + [sep] + b;
      SplitAround(a[1..], sep, b);
    }
  }

  /** `Split` undoes `JoinWith` when no part contains the separator. */
  lemma {:induction false} SplitJoin(parts: seq<string>, sep: char)
    requires |parts| >= 1
    requires AllFree(parts, sep)
    ensures Split(JoinWith(parts, sep), sep) == parts
    decreases |parts|
  {
    assert Free(parts[0], sep);
    SplitFree(parts[0], sep);
    if |parts| > 1 {
      assert AllFree(parts[1..], sep) by {
        forall i | 0 <= i < |parts[1..]| ensures Free(parts[1..][i], sep) {
          assert parts[1..][i] == parts[i + 1];
        }
      }
      SplitJoin(parts[1..], sep);
      SplitAround(parts[0], sep, JoinWith(parts[1..], sep));
      assert [parts[0]] + parts[1..] == parts;
    }
  }

  lemma FreeConcat(a: string, b: string, c: char)
    requires Free(a, c) && Free(b, c)
    ensures Free(a + b, c)
  {
    forall i | 0 <= i < |a + b| ensures (a + b)[i] != c {
      if i >= |a| { assert (a + b)[i] == b[i - |a|]; }
    }
  }
}

=== FILE: types.dfy ===
/** Failure-carrying datatypes shared by every module of the model.

    The Rust program uses `Option`, `Result` and `panic!`.  A panic ends the
    worker thread, so a step that can panic returns a `Run`: either it finished
    with a value, or it panicked for the stated `Fault`. */
module Types {

  datatype Option<+T> = None | Some(value: T) {
    /** Rust's `opt.or(Some(d)).unwrap()`: the value if present, `d` otherwise. */
    function OrDefault(d: T): T {
      match this
      case Some(v) => v
      case None => d
    }
  }

  datatype Result<+T, +E> = Ok(value: T) | Err(error: E)

  /** Why a worker panicked. */
  datatype Fault =
    | UrlRejected       // `ClientBuilder::new` refused the websocket url
    | ConnectFailed     // `builder.connect` failed
    | TransportFailed   // the websocket iterator yielded an error
    | NonTextFrame      // a frame other than `Text` arrived
    | MissingJobId      // `msg.id.unwrap()` on a parsed notification without id
    | WriteFailed       // `fs::write` inside update/save of a record failed
    | MissingLocalPdf   // `pdf_local_path.unwrap()` on a record never downloaded
    | StdoutNotUtf8     // `from_utf8(&output.stdout).unwrap()` on the printer's output
    | MissingFileName   // `file_name().unwrap()` on a watcher event path
    | ReadFailed        // `read_to_string` of a record or config file failed
    | ParseFailed       // deserializing a record or config file failed

  datatype Run<+T> = Done(value: T) | Panic(fault: Fault)
}
